=== FILE: README.md ===
# dom_js core in Dafny

This project models the core of `dom_js`, a small helper library over the browser
document object model. It covers four parts:

- the element-name mini-language `parse_name`, which turns `"[ns:]tag[#id][.class…]"`
  into a namespace, tag, id and class name;
- the element builder `create_element`, with `set_attributes`, `append_children` and
  `append_child`;
- the listener broadcaster `add_event_listener` / `remove_event_listener` and their
  map forms `add_event_listeners` / `remove_event_listeners`;
- the geometry and event helpers `get_bounds`, `is_within_bounds`, `get_page_bounds`,
  `is_right_click`, `prevent_default`, `stop_propagation` and `squash_event`.

The library ships two copies of this code, `src/index.js` and `src/dom.js`, and they
differ. Each copy is modelled as written, and a `Copy` parameter (`IndexJs` or
`DomJs`) selects the copy wherever the behaviour differs. The two copies of
`parse_name` are two functions, `ParseIndex` and `ParseDom`.

Modules, in dependency order:

| module | file | contents |
|---|---|---|
| `Wrappers` | `wrappers.dfy` | `Option` and `Result`, with `:-` support |
| `Host` | `host.dfy` | node ids, listener capabilities, the two copies, thrown errors |
| `Strings` | `strings.dfy` | JavaScript `split`/`join` on one character, string truthiness |
| `Names` | `names.dfy` | both `parse_name` copies and their properties |
| `Broadcast` | `broadcast.dfy` | the triples the three nested `forEach` loops visit, in order |
| `Listeners` | `listeners.dfy` | the broadcast loops as a log of host calls |
| `Elements` | `elements.dfy` | the builder, the element as a record of what was done to it |
| `Geometry` | `geometry.dfy` | bounds repair, containment, page size |
| `Events` | `events.dfy` | right-click test and event suppression |

How the host is modelled:

- The DOM is not modelled. Every host object is a record of what the library did to it.
  An element records:
  - its `classList.add` calls;
  - its `className` and `id` assignments;
  - its `setAttribute` calls, in order (`Attr` reads the value the last write left);
  - its appended children;
  - its listener registration calls.
- A listener target has one of three capabilities:
  - `Standard`: `addEventListener`/`removeEventListener`;
  - `LegacyOnly`: `attachEvent`/`detachEvent` only;
  - `NoApi`: neither.

  Calling a method the target does not have is a JavaScript `TypeError`. The model
  returns it as `NotAFunction(name)`, together with the calls made before it.
- A thrown parse error is `InvalidName(name)`.
- JavaScript `undefined` is `None`. Truthiness is modelled exactly for strings (`""` is
  falsy) and for numbers (`0` is falsy, NaN excepted). There are two predicates of the
  same name: `Strings.Truthy` over `Option<string>` and `Geometry.Truthy` over
  `Option<real>`.

## Model

| member | source | states |
|---|---|---|
| Strings.Split | src/index.js:268 | `split` on one character yields at least one segment, at least two exactly when the separator occurs, segments free of the separator and made of the input's characters, and joining them back gives the input |
| Strings.SplitJoin | src/index.js:40 | splitting a space-joined list of space-free tokens gives the tokens back, so the `classList.add` tokens are exactly the class name's words |
| Names.Resolve | src/index.js:295 | the namespace table resolves exactly the key `svg`, to the SVG namespace URI; every other key and a missing key give `undefined` |
| Names.ScanPrefix | src/index.js:267-276 | the shared `:` and `#` steps: a namespace key exists exactly when the name holds `:`, and it is the colon-free text before the first `:`; the remainder holds neither `:` nor `#`, and a split was made exactly when one of the two occurs |
| Names.ScanNamespace | src/index.js:267-271 | a name gets the SVG namespace exactly when it starts with `svg:` |
| Names.Conclude | src/index.js:292-293 | the last two statements: an empty tag falls back to `arg_copy`, and the parse throws `InvalidName(name)` exactly when both are empty; otherwise the namespace is the resolved key and id and class pass through |
| Names.ParseIndex | src/index.js:264-300 | `parse_name` of this copy succeeds exactly when `arg_copy` after the `:` and `#` steps is non-empty or the last split made has a non-empty first segment, and otherwise throws `InvalidName(name)`; a parsed tag is non-empty and colon-free; id and class contain no delimiter; the namespace is set exactly for `svg:` names |
| Names.ParseDom | src/dom.js:180-207 | `parse_name` of this copy succeeds exactly when the part before `#` or `arg_copy` after the `:` and `#` steps is non-empty, and otherwise throws `InvalidName(name)`; the tag also never holds `#`; the other clauses are those of `ParseIndex` |
| Names.PlainName | src/index.js:288-290 | a non-empty name with no `:`, `#` or `.` is the tag, with no namespace, id or class, in both copies |
| Names.ExtraColonDropped | src/index.js:267-271 | only the first two `:` segments are read: for every colon-free key and second segment, `key:p:more` parses like `key:p` in both copies |
| Names.ExtraHashDropped | src/index.js:272-276 | only the first two `#` segments are read: for colon-free `t`, `i` and `more` with no `#` in `t` or `i`, `t#i#more` parses like `t#i` in both copies |
| Names.HashOnly | src/index.js:283-291 | `#name` has an empty tag before `#`, so both copies take the name as the tag; `src/index.js` also takes it as the id |
| Names.EmptyAndHashThrow | src/index.js:292-293 | `""` and `"#"` name no tag, and both copies throw on them |
| Names.TagAndId | src/index.js:283-287 | `tag#id` gets its id only from this copy's `else` branch; `src/dom.js` drops the id |
| Names.TagIdClass | src/index.js:277-282 | `tag#id.c…` gives the id and the first class segment only, identically in both copies |
| Names.TagClass | src/dom.js:193-198 | `tag.c…` gives the tag and the first class segment only, identically in both copies |
| Names.Namespaced | src/index.js:283-287 | `key:name`, for every colon-free key (which may hold `#` and `.`) and every delimiter-free name: this copy makes the key the tag and the name the id; `src/dom.js` makes the name the tag and throws when it is empty |
| Names.DotOnly | src/index.js:277-292 | `.c` has an empty first dot segment, so both copies fall back to `arg_copy`: the tag is `.c` itself and the class `c` |
| Names.HashIdClass | src/index.js:272-281 | `#i.c` leaves the tag empty after the `#` step, so both copies take `i` as the tag, `c` as the class and give no id |
| Names.HashBeforeColon | src/index.js:267-287 | in `a#b:c` the key is `a#b`, which resolves to no namespace; this copy gives tag `a#b` with id `c`, and `src/dom.js` gives tag `c` |
| Names.SvgPath | src/dom.js:183-199 | `svg:path` is a `path` element in this copy, but an `svg` element with id `path` in `src/index.js` |
| Names.OtherKeyNoNamespace | src/index.js:295 | for every colon-free key other than `svg` and every rest, a successful parse in either copy has no namespace |
| Names.SvgColonOnly | src/dom.js:199-200 | `svg:` parses in `src/index.js` as an `svg` element with empty id, and throws in this copy |
| Names.ColonPrefixIndex | src/index.js:267-282 | in front of a name holding `#` or `.`, a namespace key changes only the namespace of what `src/index.js` parses |
| Names.ColonPrefixDom | src/dom.js:183-198 | the same for `src/dom.js` |
| Names.NsTagId | src/index.js:283-287 | `key:tag#id` gets the id in `src/index.js` and drops it in `src/dom.js`, each with the key's namespace |
| Names.NsTagClass | src/dom.js:183-198 | `key:tag.c…` gives the key's namespace, the tag and the first class segment, identically in both copies |
| Names.NsTagIdClass | src/index.js:267-282 | `key:tag#id.c…`, such as `svg:g#main.icon`, gives the key's namespace, tag, id and first class segment, identically in both copies |
| Names.CopiesAgreeWithoutColonOrHash | src/dom.js:180-207 | a name without `:` and `#` parses the same in both copies |
| Names.DomAcceptsOnlyWhatIndexAccepts | src/dom.js:180-207 | every name `src/dom.js` accepts, `src/index.js` accepts too, with the same namespace and class name |
| Listeners.Registration | src/index.js:57-58 | the call made for one triple targets the element with the listener; standard calls pass the event type and legacy calls pass `"on"` + the event type |
| Listeners.Normalize | src/index.js:51-53 | an array argument is used as it is, and a single value becomes a one-element array |
| Listeners.Step | src/dom.js:44-45 | the loop body: a target with an API gets its registration; without one, `src/index.js` skips on add while `src/dom.js` throws on add, and both throw on remove |
| Listeners.Run | src/index.js:54-60 | the nested loops make at most one call per triple, and any error is the missing legacy method of the operation |
| Listeners.RunThrows | src/index.js:54-60 | the loops throw exactly when some triple's body throws |
| Listeners.RunEmits | src/index.js:54-60 | when every body makes a call, the log holds the n-th triple's call at position n and nothing throws |
| Listeners.RunSkips | src/index.js:54-60 | when every body skips, no call is made and nothing throws |
| Listeners.RunAppend | src/index.js:54-60 | running two stretches of triples in turn is running their concatenation, a throw cutting off the rest |
| Listeners.ThrowsIffLacking | src/index.js:71-72 | a broadcast throws exactly when it removes, or adds in `src/dom.js`, on some target without an API, and there is at least one event and one listener |
| Broadcast.Product | src/index.js:54-56 | the three nested loops, elements outermost; its length, positions, multiplicities and members are stated by the four `Broadcast.Product…` lemmas below |
| Broadcast.ProductLength | src/index.js:54-56 | the three nested loops visit \|elements\|·\|events\|·\|listeners\| triples |
| Broadcast.ProductIndex | src/index.js:54-56 | the triple at position (i·\|events\| + j)·\|listeners\| + k is (elements[i], events[j], listeners[k]), elements outermost and listeners innermost (`Mul` is multiplication, by `Broadcast.MulIsProduct`) |
| Broadcast.ProductCount | src/index.js:54-56 | every triple occurs as often as the product of its components' multiplicities |
| Broadcast.ProductAppend | src/index.js:54-56 | the product over two concatenated element lists is the product over the first followed by the product over the second |
| Broadcast.ProductMember | src/index.js:54-56 | a triple is visited exactly when each component is among its arguments |
| Listeners.AddEventListener | src/index.js:50-62 | `add_event_listener` never throws in `src/index.js`; it throws in `src/dom.js` exactly when some element lacks an API and there is work to do; with APIs everywhere it makes \|elements\|·\|events\|·\|listeners\| calls |
| Listeners.RemoveEventListener | src/index.js:64-76 | `remove_event_listener` throws exactly when some element lacks an API and there is work to do; otherwise it makes one call per triple |
| Listeners.AllEmit | src/dom.js:41-48 | with APIs everywhere, call k is the registration of triple k |
| Listeners.RegistrationAt | src/index.js:54-58 | with APIs everywhere, the n-th registration call is the one for the n-th triple |
| Listeners.AddEventListenerOrder | src/index.js:54-60 | registrations happen elements outermost, then events, then listeners |
| Listeners.Inverse | src/index.js:71-72 | the removal call matching a registration: `addEventListener` becomes `removeEventListener`, `attachEvent` becomes `detachEvent`, and target, event type and listener are kept |
| Listeners.RemoveMirrorsAdd | src/index.js:64-76 | on elements with an API, removal makes, position by position, the inverse of each registration call |
| Listeners.IndexAddSilentRemoveThrows | src/index.js:58 | on an element with no API, `src/index.js` registers nothing without error but throws on removal |
| Listeners.WithApi | src/index.js:57-58 | the targets kept are exactly those that have an API, no more of them than were given, and all of them when every target has one |
| Listeners.WithApiAppend | src/index.js:54-58 | the filter keeps order: filtering a concatenation is concatenating the filtered parts |
| Listeners.ElementsInTurn | src/index.js:54-76 | adding or removing on elements `a + b` is doing it on `a` and then on `b`, in either copy; a throw among `a` means `b` is never visited |
| Listeners.IndexAddSkipsLacking | src/index.js:57-58 | in `src/index.js` an element without an API is skipped as if it were not in the list |
| Listeners.NoThrowWithApi | src/index.js:83-88 | the map form never throws when adding in `src/index.js` or when every element has an API |
| Listeners.KeyedMember | src/index.js:83-88 | the map form visits (element, key, listener) exactly when the element is given and the listener is among those of that own key |
| Listeners.MapFormCalls | src/index.js:83-100 | on elements with APIs, the map forms make one call per keyed triple in order: the registration when adding, its inverse when removing |
| Listeners.SingleKeyed | src/index.js:83-88 | on one element, a map whose keys share their listeners visits the same triples as one broadcast over its keys |
| Listeners.EachEntryRuns | src/index.js:83-88 | the map form is one broadcast per own key, keys outermost, with a throw ending the loop |
| Listeners.EachEntry | src/index.js:85-87 | the `for…in` loop over own keys: an empty map makes no call, and any error is the missing legacy method of the operation |
| Listeners.AddEventListeners | src/index.js:83-88 | `add_event_listeners` runs one broadcast over the keyed triples, keys outermost; it never throws in `src/index.js` or on elements with APIs, any error is the missing `attachEvent`, and a missing map registers nothing |
| Listeners.RemoveEventListeners | src/index.js:95-100 | `remove_event_listeners` runs one removal over the keyed triples, keys outermost; it never throws on elements with APIs, any error is the missing `detachEvent`, and a missing map removes nothing |
| Listeners.MapFormIsBroadcastOverKeys | src/dom.js:65-70 | a map whose keys all carry the same listeners registers exactly like one broadcast over the list of keys |
| Listeners.CopiesAgreeWithApi | src/dom.js:37-49 | where every target has an API, the two copies' loops make the same calls |
| Listeners.MapCopiesAgreeWithApi | src/dom.js:65-77 | on elements with APIs, the two copies' map forms make the same calls, for adding and for removing |
| Elements.LastValueAppend | src/index.js:149-151 | writes later in the `setAttribute` log override earlier ones |
| Elements.SetAttributes | src/index.js:149-151 | `set_attributes` leaves each given key with its given value and every other attribute unchanged, touches nothing else, and a missing map writes nothing |
| Elements.SetAttributesWritesEach | src/dom.js:97-99 | with one write per key, each key holds its value afterwards and unlisted keys keep theirs |
| Elements.AppendChild | src/index.js:116-122 | `append_child` adds exactly one child at the end: a text node of the string, SVG-flavoured under an SVG parent, or the node itself |
| Elements.AppendAll | src/index.js:107-109 | appending a list keeps the old children as a prefix and renders the i-th argument as the i-th new child |
| Elements.AppendAllConcat | src/index.js:107-109 | appending two lists in turn is appending their concatenation |
| Elements.AppendChildren | src/index.js:107-109 | a missing children argument appends nothing |
| Elements.NewElement | src/index.js:34-38 | the created element is the fresh node with the given namespace and tag, and no classes, id, attributes, children or listeners yet |
| Elements.ClassIndex | src/index.js:39-42 | with `classList` the class name's space-separated tokens are added in order; without it one `setAttribute("class", …)` call is logged, so `class` holds the whole class name and every other attribute is unchanged; an empty class name does nothing |
| Elements.ClassDom | src/dom.js:29 | only `className` changes, and it becomes the class name when that is non-empty |
| Elements.IndexClassKept | src/index.js:39-46 | the class step survives the later steps: the added tokens are the split class name, and the `class` attribute is the class name unless the attributes overwrite it |
| Elements.Finish | src/index.js:43-46 | the shared tail of `create_element` assigns a non-empty id, writes the attributes, appends the children and registers the listeners; only the listener step can throw |
| Elements.FinishNothing | src/index.js:43-46 | with no id, attributes, children or listeners the shared steps leave the element unchanged |
| Elements.CreateElementIndex | src/index.js:31-48 | `create_element` of this copy fails exactly when the name does not parse; the element has the parsed namespace, tag and id, the given attributes and no other attribute except `class`, the given children, and its listener calls; with `classList` the added tokens are exactly the class name split on spaces, without it the `class` attribute holds the class name unless the attributes overwrite it |
| Elements.CreateElementDom | src/dom.js:21-35 | `create_element` of this copy, for a name that parses, fails exactly when registering its listeners on the new element throws, which is the case for an element without an API and a listener to register; the element has the parsed namespace, tag and id, the given children and its listener calls; its attributes are exactly the given ones, `class` included; the whole class name goes to `className` |
| Elements.CopiesBuildTheSame | src/dom.js:21-35 | for a plain tag on an element with a listener API, both copies build the same element |
| Elements.DroppedClassSegments | src/index.js:39-42 | `tag.c.more` adds only the class `c` in `src/index.js` and assigns only `c` in `src/dom.js` |
| Elements.SvgTextChild | src/index.js:117-118 | a string child of an element created in the SVG namespace becomes an SVG text node |
| Geometry.GetBounds | src/index.js:200-217 | `get_bounds` keeps the edges and any truthy width and height, otherwise derives them from the edges; `src/index.js` falls back to `left`/`top` for a falsy `x`/`y` |
| Geometry.GetBoundsIdempotent | src/dom.js:126-141 | repairing repaired bounds changes nothing |
| Geometry.GetBoundsCopiesAgree | src/dom.js:126-141 | the copies' bounds differ in `x` and `y` only |
| Geometry.EdgesOnly | src/index.js:212-215 | edges (5, 10)–(15, 30) alone give width 10, height 20 and, in `src/index.js`, position (5, 10) |
| Geometry.ZerosRepaired | src/index.js:212-215 | zero `x`, `y`, `width` and `height` are falsy and are derived from the edges like missing ones |
| Geometry.IsWithinBounds | src/index.js:225-234 | `is_within_bounds` holds exactly when the child's top-left corner or centre lies within the container's edges, boundaries included, in either copy |
| Geometry.WithinTranslationInvariant | src/dom.js:143-150 | moving child and container by the same offset does not change containment |
| Geometry.ContainmentExamples | src/index.js:229-233 | a point child inside is within, a point child outside is not, and a larger child sharing the container's centre is within by its centre alone |
| Geometry.WithinMonotone | src/index.js:230-233 | a child within a container stays within any container enclosing it |
| Geometry.EnclosedIsWithin | src/index.js:230-231 | a child whose edges lie inside the container is within it |
| Geometry.WithinNotSymmetric | src/index.js:225-234 | a small box inside a large one is within it, but not the reverse |
| Geometry.CentreSuffices | src/dom.js:143-150 | a child whose corner lies outside but whose centre lies inside is within |
| Geometry.FirstTruthy | src/index.js:190-191 | a page dimension is the first truthy source in preference order, the last one when none is truthy |
| Geometry.GetPageBounds | src/index.js:189-193 | `get_page_bounds` takes each dimension from the window when truthy, else from the body when truthy, else from the root element, and is truthy exactly when some source is |
| Geometry.LaterSourcesHidden | src/index.js:190-191 | once a source is truthy, the sources after it do not affect the result |
| Geometry.ZeroWindowFallsThrough | src/index.js:190-191 | a zero window size is falsy and the body's size is used |
| Events.IsRightClick | src/index.js:240-245 | `is_right_click` is undefined exactly when the event has neither property, and true exactly for `which` 3, or `button` 2 when `which` is absent |
| Events.WhichTakesPrecedence | src/dom.js:156-161 | once `which` is present, `button` does not matter |
| Events.PreventDefault | src/index.js:157-160 | `prevent_default` leaves the default prevented and keeps propagation stopped if it was; the standard route adds exactly one `preventDefault` call and nothing else, the legacy route only sets `returnValue` to false |
| Events.StopPropagation | src/index.js:166-172 | `stop_propagation` leaves propagation stopped and keeps a prevented default; the standard route adds exactly one `stopPropagation` call and nothing else, the legacy route makes no call and sets `cancelBubble` to true and `returnValue` to false |
| Events.SquashEvent | src/index.js:179-183 | `squash_event` leaves the event both default-prevented and stopped, and returns false |
| Events.SquashLegacyIdempotent | src/dom.js:114-118 | squashing a legacy event twice is squashing it once |
| Events.SquashStandard | src/dom.js:101-118 | on a standard event, squashing calls `preventDefault` then `stopPropagation` and sets no legacy property |

## Left out

- The two copies' `key_codes` tables differ in one name: key code 46 is `del` in `src/index.js`
  and `delete` in `src/dom.js`. The tables are constants and are not modelled.
- `key_codes`, `remove_element`, `remove_elements`, `empty_element`, `is_node`, `is_html_element`
  and the `Accordion` widget are not modelled. They are not part of the core: a constant table,
  pass-through DOM calls, environment type tests and a UI widget.
- The DOM's own behaviour is not modelled. This covers:
  - `DOMTokenList.add` removing duplicates and throwing on an empty token;
  - `id` and `className` being reflected as attributes;
  - `appendChild` moving a node that already has a parent;
  - dispatching events to listeners.
  
  The element records the calls the library makes, not the resulting DOM state.
- Values are restricted to the types the library is written for:
  - `setAttribute` values are strings;
  - children are strings or nodes;
  - event properties are integers.

  Coercion of other JavaScript values is not modelled.
- `src/dom.js` iterates children with underscore's `_.each`, which also walks the values of a
  plain object. Only arrays and a missing argument are modelled.
- Object keys are taken as a list in enumeration order. Inherited properties are not
  modelled: `hasOwnProperty` filters them out, so they make no calls. Namespace keys that
  name `Object.prototype` members (such as `constructor`) are not modelled.
- Numbers are exact reals. IEEE-754 rounding, NaN and infinities are not modelled.
- Geometry.GetBounds: a NaN width or height is falsy in JavaScript and is recomputed from the
  edges. With no NaN in the model, only `undefined` and `0` are falsy.

The code departs from the natural reading of the `ns:tag#id.class` grammar in nine places. The model
follows the code:

- A name with several class segments keeps only the first. `div.a.b` gets the class `a`, and
  `div#main.card.featured` gets id `main` and class `card` (`Elements.DroppedClassSegments`,
  `Names.TagIdClass`).
- `svg:path` is a `path` element in `src/dom.js`. In `src/index.js`, the `else`
  branch that re-reads the colon split turns it into an `svg` element with id `path`
  (`Names.SvgPath`, `Names.Namespaced`).
- Only the first two segments of each `:` and `#` split are read. `a:b:c` parses as `a:b`, and
  `t#i#x` as `t#i`, in both copies (`Names.ExtraColonDropped`, `Names.ExtraHashDropped`).
- `#x` has an empty tag, so the tag falls back to `x`. `src/index.js` also takes `x` as the id,
  from its `else` branch; `src/dom.js` gives no id (`Names.HashOnly`).
- `.c` has an empty segment before the dot, so the tag falls back to the whole name: both
  copies give tag `.c` with class `c` (`Names.DotOnly`).
- `#i.c` has an empty tag before `#`, so the `.` step takes `i` as the tag rather than the
  id: both copies give tag `i`, class `c` and no id (`Names.HashIdClass`). This differs
  from `#x` above, where `src/index.js` keeps the id.
- The `:` step comes before the `#` step, so in `a#b:c` the namespace key is `a#b`.
  `src/index.js` gives tag `a#b` with id `c`, and `src/dom.js` gives tag `c`
  (`Names.HashBeforeColon`, `Names.Namespaced`).
- The builder applies the class before the id, although a name writes the id first. Neither step
  reads the other, so the order is not observable in the model.
- `src/dom.js` drops the id of `tag#id` (`Names.TagAndId`). Registering a listener on an element
  without a listener API throws in `src/dom.js`, and is skipped in `src/index.js`.

=== FILE: broadcast.dfy ===
/**
 * The Cartesian product of three sequences, built the way the broadcaster's
 * three nested `forEach` loops visit it: the first sequence outermost, the
 * last innermost. Its length, the position of each triple, how often a
 * triple occurs, and which triples occur.
 */
module Broadcast {
  /** The innermost loop: one element, one event, every listener. */
  function Inner<A, B, C>(x: A, y: B, zs: seq<C>): (r: seq<(A, B, C)>)
    ensures |r| == |zs|
    ensures forall k :: 0 <= k < |zs| ==> r[k] == (x, y, zs[k])
  {
    if |zs| == 0 then [] else [(x, y, zs[0])] + Inner(x, y, zs[1..])
  }

  /** The two inner loops: one element, every event, every listener. */
  function Row<A, B, C>(x: A, ys: seq<B>, zs: seq<C>): seq<(A, B, C)> {
    if |ys| == 0 then [] else Inner(x, ys[0], zs) + Row(x, ys[1..], zs)
  }

  /** All three loops. */
  function Product<A, B, C>(xs: seq<A>, ys: seq<B>, zs: seq<C>): seq<(A, B, C)> {
    if |xs| == 0 then [] else Row(xs[0], ys, zs) + Product(xs[1..], ys, zs)
  }

  /**
   * a·b by repeated addition. Positions and counts in the product are stated
   * with it so that their proofs stay within linear arithmetic; `MulIsProduct`
   * shows it is ordinary multiplication.
   */
  function Mul(a: nat, b: nat): nat {
    if a == 0 then 0 else b + Mul(a - 1, b)
  }

  lemma {:induction false} MulIsProduct(a: nat, b: nat)
    ensures Mul(a, b) == a * b
  {
    if a > 0 {
      MulIsProduct(a - 1, b);
      assert (a - 1) * b + b == a * b;
    }
  }

  lemma {:induction false} RowLength<A, B, C>(x: A, ys: seq<B>, zs: seq<C>)
    ensures |Row(x, ys, zs)| == Mul(|ys|, |zs|)
    decreases |ys|
  {
    if |ys| > 0 {
      RowLength(x, ys[1..], zs);
    }
  }

  /** The product has one entry per combination: |elements|·|events|·|listeners|. */
  lemma {:induction false} ProductLength<A, B, C>(xs: seq<A>, ys: seq<B>, zs: seq<C>)
    ensures |Product(xs, ys, zs)| == Mul(|xs|, Mul(|ys|, |zs|))
    decreases |xs|
  {
    if |xs| > 0 {
      RowLength(xs[0], ys, zs);
      ProductLength(xs[1..], ys, zs);
    }
  }

  /** One step of a count by induction: a head contributing `m` or nothing, and `n` more multiples of `m`. */
  lemma CountStep(total: int, x: int, y: int, head: bool, n: nat, c: nat, m: nat)
    requires total == x + y && x == (if head then m else 0) && y == Mul(n, m)
    requires c == (if head then 1 else 0) + n
    ensures total == Mul(c, m)
  {
  }

  lemma {:induction false} RowIndex<A, B, C>(x: A, ys: seq<B>, zs: seq<C>, j: nat, k: nat)
    requires j < |ys| && k < |zs|
    ensures Mul(j, |zs|) + k < |Row(x, ys, zs)|
    ensures Row(x, ys, zs)[Mul(j, |zs|) + k] == (x, ys[j], zs[k])
    decreases j
  {
    RowLength(x, ys[1..], zs);
    if j > 0 {
      RowIndex(x, ys[1..], zs, j - 1, k);
    }
  }

  /** The product over `as1 + as2` is the product over `as1` followed by the product over `as2`. */
  lemma {:induction false} ProductAppend<A, B, C>(as1: seq<A>, as2: seq<A>, ys: seq<B>, zs: seq<C>)
    ensures Product(as1 + as2, ys, zs) == Product(as1, ys, zs) + Product(as2, ys, zs)
    decreases |as1|
  {
    if |as1| == 0 {
      assert as1 + as2 == as2;
    } else {
      var s := as1 + as2;
      assert s[0] == as1[0] && s[1..] == as1[1..] + as2;
      calc {
        Product(s, ys, zs);
        Row(as1[0], ys, zs) + Product(as1[1..] + as2, ys, zs);
        { ProductAppend(as1[1..], as2, ys, zs); }
        Row(as1[0], ys, zs) + (Product(as1[1..], ys, zs) + Product(as2, ys, zs));
        Product(as1, ys, zs) + Product(as2, ys, zs);
      }
    }
  }

  /** The position of (elements[i], events[j], listeners[k]) in the product: (i·|events| + j)·|listeners| + k. */
  function Position(i: nat, j: nat, k: nat, events: nat, listeners: nat): nat {
    Mul(i, Mul(events, listeners)) + Mul(j, listeners) + k
  }

  lemma PositionStep(i: nat, j: nat, k: nat, events: nat, listeners: nat)
    requires i > 0
    ensures Position(i, j, k, events, listeners) == Mul(events, listeners) + Position(i - 1, j, k, events, listeners)
  {
  }

  lemma ProductUnfold<A, B, C>(xs: seq<A>, ys: seq<B>, zs: seq<C>)
    requires |xs| > 0
    ensures Product(xs, ys, zs) == Row(xs[0], ys, zs) + Product(xs[1..], ys, zs)
  {
  }

  /** Reading a concatenation at an offset past its first part. */
  lemma IndexStep<T>(whole: seq<T>, first: seq<T>, rest: seq<T>, m: nat, n: nat, v: T)
    requires whole == first + rest
    requires m < |rest| && rest[m] == v && n == |first| + m
    ensures n < |whole| && whole[n] == v
  {
  }

  /** Reading a concatenation within its first part. */
  lemma IndexFirst<T>(whole: seq<T>, first: seq<T>, rest: seq<T>, n: nat, v: T)
    requires whole == first + rest
    requires n < |first| && first[n] == v
    ensures n < |whole| && whole[n] == v
  {
  }

  /** The base case of `ProductIndex`: the head's row comes first. */
  lemma ProductIndexFirst<A, B, C>(xs: seq<A>, ys: seq<B>, zs: seq<C>, j: nat, k: nat)
    requires 0 < |xs| && j < |ys| && k < |zs|
    ensures Position(0, j, k, |ys|, |zs|) < |Product(xs, ys, zs)|
    ensures Product(xs, ys, zs)[Position(0, j, k, |ys|, |zs|)] == (xs[0], ys[j], zs[k])
  {
    ProductUnfold(xs, ys, zs);
    RowIndex(xs[0], ys, zs, j, k);
    IndexFirst(Product(xs, ys, zs), Row(xs[0], ys, zs), Product(xs[1..], ys, zs),
               Position(0, j, k, |ys|, |zs|), (xs[0], ys[j], zs[k]));
  }

  /** The inductive step of `ProductIndex`: what the tail's product holds at a position, the whole product holds one row later. */
  lemma ProductIndexStep<A, B, C>(xs: seq<A>, ys: seq<B>, zs: seq<C>, i: nat, j: nat, k: nat)
    requires 0 < i < |xs| && j < |ys| && k < |zs|
    requires Position(i - 1, j, k, |ys|, |zs|) < |Product(xs[1..], ys, zs)|
    requires Product(xs[1..], ys, zs)[Position(i - 1, j, k, |ys|, |zs|)] == (xs[1..][i - 1], ys[j], zs[k])
    ensures Position(i, j, k, |ys|, |zs|) < |Product(xs, ys, zs)|
    ensures Product(xs, ys, zs)[Position(i, j, k, |ys|, |zs|)] == (xs[i], ys[j], zs[k])
  {
    ProductUnfold(xs, ys, zs);
    RowLength(xs[0], ys, zs);
    PositionStep(i, j, k, |ys|, |zs|);
    assert xs[1..][i - 1] == xs[i];
    IndexStep(Product(xs, ys, zs), Row(xs[0], ys, zs), Product(xs[1..], ys, zs),
              Position(i - 1, j, k, |ys|, |zs|), Position(i, j, k, |ys|, |zs|), (xs[i], ys[j], zs[k]));
  }

  /** The triple at `Position(i, j, k, …)` is (elements[i], events[j], listeners[k]). */
  lemma {:induction false} ProductIndex<A, B, C>(xs: seq<A>, ys: seq<B>, zs: seq<C>, i: nat, j: nat, k: nat)
    requires i < |xs| && j < |ys| && k < |zs|
    ensures Position(i, j, k, |ys|, |zs|) < |Product(xs, ys, zs)|
    ensures Product(xs, ys, zs)[Position(i, j, k, |ys|, |zs|)] == (xs[i], ys[j], zs[k])
    decreases i
  {
    if i == 0 {
      ProductIndexFirst(xs, ys, zs, j, k);
    } else {
      ProductIndex(xs[1..], ys, zs, i - 1, j, k);
      ProductIndexStep(xs, ys, zs, i, j, k);
    }
  }

  lemma {:induction false} InnerCount<A, B, C>(x: A, y: B, zs: seq<C>, t: (A, B, C))
    ensures multiset(Inner(x, y, zs))[t] == if t.0 == x && t.1 == y then multiset(zs)[t.2] else 0
    decreases |zs|
  {
    if |zs| > 0 {
      var r := Inner(x, y, zs);
      InnerCount(x, y, zs[1..], t);
      CountHead(r, t);
      CountHead(zs, t.2);
      assert r[1..] == Inner(x, y, zs[1..]);
    }
  }

  /** The multiplicity of an element of a sequence, split at its head. */
  lemma CountHead<T>(s: seq<T>, x: T)
    requires |s| > 0
    ensures multiset(s)[x] == (if s[0] == x then 1 else 0) + multiset(s[1..])[x]
  {
    assert s == [s[0]] + s[1..];
  }

  lemma RowCountStep<A, B, C>(x: A, ys: seq<B>, zs: seq<C>, t: (A, B, C))
    requires |ys| > 0
    ensures multiset(Row(x, ys, zs))[t] == multiset(Inner(x, ys[0], zs))[t] + multiset(Row(x, ys[1..], zs))[t]
  {
  }

  lemma {:induction false} RowCount<A, B, C>(x: A, ys: seq<B>, zs: seq<C>, t: (A, B, C))
    ensures multiset(Row(x, ys, zs))[t] == if t.0 == x then Mul(multiset(ys)[t.1], multiset(zs)[t.2]) else 0
    decreases |ys|
  {
    if |ys| > 0 {
      var m := multiset(zs)[t.2];
      var n := multiset(ys[1..])[t.1];
      var inner := multiset(Inner(x, ys[0], zs))[t];
      var rest := multiset(Row(x, ys[1..], zs))[t];
      RowCountStep(x, ys, zs, t);
      RowCount(x, ys[1..], zs, t);
      InnerCount(x, ys[0], zs, t);
      CountHead(ys, t.1);
      if t.0 == x {
        CountStep(multiset(Row(x, ys, zs))[t], inner, rest, ys[0] == t.1, n, multiset(ys)[t.1], m);
      }
    }
  }

  lemma ProductCountStep<A, B, C>(xs: seq<A>, ys: seq<B>, zs: seq<C>, t: (A, B, C))
    requires |xs| > 0
    ensures multiset(Product(xs, ys, zs))[t] == multiset(Row(xs[0], ys, zs))[t] + multiset(Product(xs[1..], ys, zs))[t]
  {
  }

  /**
   * No de-duplication and nothing missed: a triple occurs in the product as
   * many times as the product of its components' multiplicities, so exactly
   * once when the three arguments hold no repeats.
   */
  lemma {:induction false} ProductCount<A, B, C>(xs: seq<A>, ys: seq<B>, zs: seq<C>, t: (A, B, C))
    ensures multiset(Product(xs, ys, zs))[t] == Mul(multiset(xs)[t.0], Mul(multiset(ys)[t.1], multiset(zs)[t.2]))
    decreases |xs|
  {
    if |xs| > 0 {
      var m := Mul(multiset(ys)[t.1], multiset(zs)[t.2]);
      var n := multiset(xs[1..])[t.0];
      var row := multiset(Row(xs[0], ys, zs))[t];
      var rest := multiset(Product(xs[1..], ys, zs))[t];
      ProductCountStep(xs, ys, zs, t);
      ProductCount(xs[1..], ys, zs, t);
      RowCount(xs[0], ys, zs, t);
      CountHead(xs, t.0);
      CountStep(multiset(Product(xs, ys, zs))[t], row, rest, xs[0] == t.0, n, multiset(xs)[t.0], m);
    }
  }

  lemma {:induction false} InnerMember<A, B, C>(x: A, y: B, zs: seq<C>, t: (A, B, C))
    ensures t in Inner(x, y, zs) <==> t.0 == x && t.1 == y && t.2 in zs
    decreases |zs|
  {
    if |zs| > 0 {
      InnerMember(x, y, zs[1..], t);
      assert zs == [zs[0]] + zs[1..];
    }
  }

  lemma {:induction false} RowMember<A, B, C>(x: A, ys: seq<B>, zs: seq<C>, t: (A, B, C))
    ensures t in Row(x, ys, zs) <==> t.0 == x && t.1 in ys && t.2 in zs
    decreases |ys|
  {
    if |ys| > 0 {
      InnerMember(x, ys[0], zs, t);
      RowMember(x, ys[1..], zs, t);
      assert ys == [ys[0]] + ys[1..];
    }
  }

  /** A triple is in the product exactly when each of its components is in its argument. */
  lemma {:induction false} ProductMember<A, B, C>(xs: seq<A>, ys: seq<B>, zs: seq<C>, t: (A, B, C))
    ensures t in Product(xs, ys, zs) <==> t.0 in xs && t.1 in ys && t.2 in zs
    decreases |xs|
  {
    if |xs| > 0 {
      RowMember(xs[0], ys, zs, t);
      ProductMember(xs[1..], ys, zs, t);
      assert xs == [xs[0]] + xs[1..];
    }
  }
}

=== FILE: elements.dfy ===
/**
 * The element builder: `create_element`, `set_attributes`, `append_children`
 * and `append_child`. The DOM node being built is an immutable record of
 * what the builder did to it, and each builder step returns an updated
 * record. The steps run in a fixed order: creation (namespaced or plain),
 * class, id, attributes, children, listeners.
 */
module Elements {
  import opened Wrappers
  import opened Strings
  import opened Host
  import opened Names
  import opened Listeners

  /** A child argument: a string, or a node that already exists. */
  datatype ChildArg = StringArg(text: string) | NodeArg(node: NodeId)

  /**
   * A child of the element: a text node (`svgText` records that it was
   * created by the SVG-aware call `createTextNode(child, true)`), or an
   * appended existing node.
   */
  datatype Child = Text(data: string, svgText: bool) | Node(node: NodeId)

  /** What the document hands out for a new element: its identity and the APIs it offers. */
  datatype Fresh = Fresh(node: NodeId, api: Capability, hasClassList: bool)

  /** Own enumerable properties of an `attributes` object, in enumeration order. */
  type Attributes = seq<(string, string)>

  /**
   * An element as the builder leaves it:
   * - `namespace`: the `namespace` property, set only on namespaced creation;
   * - `classAdds`: the `classList.add` calls, in order;
   * - `className`: the value assigned to the `className` property, if any;
   * - `id`: the value assigned to the `id` property, if any;
   * - `attributes`: the `setAttribute` calls, in order;
   * - `children`: the appended children, in order;
   * - `listeners`: the listener calls made on the element.
   */
  datatype Element = Element(
    node: NodeId,
    api: Capability,
    hasClassList: bool,
    namespace: Option<string>,
    tag: string,
    classAdds: seq<string>,
    className: Option<string>,
    id: Option<string>,
    attributes: Attributes,
    children: seq<Child>,
    listeners: seq<Call>)

  /** `document.createElementNS(namespace, tag)` or `document.createElement(tag)`. */
  function NewElement(f: Fresh, namespace: Option<string>, tag: string): (r: Element)
    ensures r.node == f.node && r.api == f.api && r.hasClassList == f.hasClassList
    ensures r.namespace == namespace && r.tag == tag
    ensures r.classAdds == [] && r.className.None? && r.id.None?
    ensures forall key :: Attr(r, key).None?
    ensures r.children == [] && r.listeners == []
  {
    Element(f.node, f.api, f.hasClassList, namespace, tag, [], None, None, [], [], [])
  }

  /** The element as a listener target. */
  function AsTarget(e: Element): Target {
    Target(e.node, e.api)
  }

  // ---------------------------------------------------------------------------
  // Attributes.

  /** The value the last write to `key` left in a `setAttribute` log. */
  function LastValue(log: Attributes, key: string): Option<string>
    decreases |log|
  {
    if |log| == 0 then None
    else if log[|log| - 1].0 == key then Some(log[|log| - 1].1)
    else LastValue(log[..|log| - 1], key)
  }

  /** The current value of an attribute of the element. */
  function Attr(e: Element, key: string): Option<string> {
    LastValue(e.attributes, key)
  }

  /** Writes in a later stretch of the log override those in an earlier one. */
  lemma {:induction false} LastValueAppend(log: Attributes, more: Attributes, key: string)
    ensures LastValue(log + more, key) == if LastValue(more, key).Some? then LastValue(more, key) else LastValue(log, key)
    decreases |more|
  {
    if more != [] {
      var n := |more| - 1;
      assert (log + more)[..|log + more| - 1] == log + more[..n];
      LastValueAppend(log, more[..n], key);
    } else {
      assert log + more == log;
    }
  }

  /** In a log with one write per key, the value of a key is the value written for it. */
  lemma {:induction false} LastValueOfUniqueKeys(log: Attributes, n: nat)
    requires n < |log|
    requires forall a, b :: 0 <= a < b < |log| ==> log[a].0 != log[b].0
    ensures LastValue(log, log[n].0) == Some(log[n].1)
    decreases |log|
  {
    if n < |log| - 1 {
      LastValueOfUniqueKeys(log[..|log| - 1], n);
    }
  }

  /** The value `key` holds once `attributes` are written over an element where it held `before`. */
  function Overwritten(attributes: Option<Attributes>, key: string, before: Option<string>): Option<string> {
    if attributes.Some? && LastValue(attributes.value, key).Some? then LastValue(attributes.value, key) else before
  }

  /**
   * `set_attributes`: one `setAttribute` per own key, in order; a missing
   * (`null`/`undefined`) map writes nothing. Afterwards each given key holds
   * the value given for it, every other attribute keeps its value, and
   * nothing but the attributes changes.
   */
  function SetAttributes(e: Element, attributes: Option<Attributes>): (r: Element)
    ensures r == e.(attributes := r.attributes)
    ensures attributes.None? ==> r == e
    ensures forall key :: Attr(r, key) == Overwritten(attributes, key, Attr(e, key))
  {
    if attributes.None? then e
    else
      var r := e.(attributes := e.attributes + attributes.value);
      assert forall key :: Attr(r, key) == Overwritten(attributes, key, Attr(e, key)) by {
        forall key ensures Attr(r, key) == Overwritten(attributes, key, Attr(e, key)) {
          LastValueAppend(e.attributes, attributes.value, key);
        }
      }
      r
  }

  // ---------------------------------------------------------------------------
  // Children.

  /** `arg` became the child `c` of a parent whose namespace is or is not SVG's. */
  predicate Renders(arg: ChildArg, c: Child, svg: bool) {
    match arg
    case StringArg(s) => c == Text(s, svg)
    case NodeArg(n) => c == Node(n)
  }

  /**
   * `append_child`: a string becomes a text node with the same content,
   * created the SVG way when the parent's `namespace` is the SVG namespace;
   * a node is appended as it is.
   */
  function AppendChild(parent: Element, child: ChildArg): (r: Element)
    ensures r == parent.(children := r.children)
    ensures |r.children| == |parent.children| + 1
    ensures r.children[..|parent.children|] == parent.children
    ensures Renders(child, r.children[|parent.children|], parent.namespace == Some(SvgUri))
  {
    var c := match child
      case StringArg(s) => Text(s, parent.namespace == Some(SvgUri))
      case NodeArg(n) => Node(n);
    parent.(children := parent.children + [c])
  }

  /** `append_child` for each child in order. */
  function AppendAll(parent: Element, cs: seq<ChildArg>): (r: Element)
    ensures r == parent.(children := r.children)
    ensures |r.children| == |parent.children| + |cs|
    ensures r.children[..|parent.children|] == parent.children
    ensures forall n :: 0 <= n < |cs| ==>
      Renders(cs[n], r.children[|parent.children| + n], parent.namespace == Some(SvgUri))
    decreases |cs|
  {
    if |cs| == 0 then parent
    else
      var first := AppendChild(parent, cs[0]);
      var r := AppendAll(first, cs[1..]);
      assert r.children[..|parent.children|] == first.children[..|parent.children|];
      assert forall n :: 1 <= n < |cs| ==> cs[n] == cs[1..][n - 1];
      assert r.children[|parent.children|] == first.children[|parent.children|];
      r
  }

  /**
   * `append_children`: children of an array are appended in order; any
   * other argument is ignored.
   */
  function AppendChildren(parent: Element, children: Option<seq<ChildArg>>): (r: Element)
    ensures children.None? ==> r == parent
    ensures children.Some? ==> r == AppendAll(parent, children.value)
  {
    if children.Some? then AppendAll(parent, children.value) else parent
  }

  // ---------------------------------------------------------------------------
  // The builder.

  /** The listener calls `create_element` makes on the new element. */
  function WireListeners(copy: Copy, e: Element, listeners: Option<Entries>): Outcome {
    AddEventListeners(copy, One(AsTarget(e)), listeners)
  }

  /**
   * The steps both copies share after the class step: a non-empty id is
   * assigned, the attributes are written, the children appended and the
   * listeners registered. Only the listener step can throw.
   */
  function Finish(copy: Copy, e: Element, id: Option<string>, attributes: Option<Attributes>,
                  children: Option<seq<ChildArg>>, listeners: Option<Entries>): (r: Result<Element, Error>)
    ensures r.Failure? <==> WireListeners(copy, e, listeners).error.Some?
    ensures r.Failure? ==> r.error == NotAFunction("attachEvent")
    ensures r.Success? ==> Extends(e, id, attributes, children, r.value)
    ensures r.Success? ==> r.value.listeners == e.listeners + WireListeners(copy, e, listeners).calls
  {
    var ready := Prepare(e, id, attributes, children);
    // The earlier steps leave the element's listener target as it was.
    var o := WireListeners(copy, e, listeners);
    if o.error.Some? then Failure(o.error.value)
    else
      ExtendsIgnoresListeners(e, id, attributes, children, ready, ready.listeners + o.calls);
      Success(ready.(listeners := ready.listeners + o.calls))
  }

  /** `Extends` does not look at the listener log. */
  lemma ExtendsIgnoresListeners(e: Element, id: Option<string>, attributes: Option<Attributes>,
                                children: Option<seq<ChildArg>>, after: Element, calls: seq<Call>)
    requires Extends(e, id, attributes, children, after)
    ensures Extends(e, id, attributes, children, after.(listeners := calls))
  {
    var moved := after.(listeners := calls);
    forall key ensures Attr(moved, key) == Attr(after, key) {
      assert moved.attributes == after.attributes;
    }
  }

  /** The steps of `Finish` before the listeners: id, attributes, children. */
  function Prepare(e: Element, id: Option<string>, attributes: Option<Attributes>,
                   children: Option<seq<ChildArg>>): (r: Element)
    ensures Extends(e, id, attributes, children, r)
    ensures AsTarget(r) == AsTarget(e) && r.listeners == e.listeners
  {
    var withId := if Truthy(id) then e.(id := id) else e;
    var withAttributes := SetAttributes(withId, attributes);
    var withChildren := AppendChildren(withAttributes, children);
    assert Extends(e, id, attributes, children, withChildren) by {
      forall key ensures Attr(withChildren, key) == Overwritten(attributes, key, Attr(e, key)) {
        assert Attr(withChildren, key) == Attr(withAttributes, key);
        assert Attr(withId, key) == Attr(e, key);
      }
    }
    withChildren
  }

  /**
   * `after` is `before` with a non-empty `id` assigned, the given attributes
   * written over the old ones, and the given children appended; its
   * identity, name and classes are those of `before`.
   */
  ghost predicate Extends(before: Element, id: Option<string>, attributes: Option<Attributes>,
                          children: Option<seq<ChildArg>>, after: Element) {
    var cs := if children.Some? then children.value else [];
    && after.node == before.node && after.api == before.api && after.hasClassList == before.hasClassList
    && after.namespace == before.namespace && after.tag == before.tag
    && after.classAdds == before.classAdds && after.className == before.className
    && after.id == (if Truthy(id) then id else before.id)
    && (forall key :: Attr(after, key) == Overwritten(attributes, key, Attr(before, key)))
    && |after.children| == |before.children| + |cs|
    && after.children[..|before.children|] == before.children
    && (forall n :: 0 <= n < |cs| ==>
          Renders(cs[n], after.children[|before.children| + n], before.namespace == Some(SvgUri)))
  }

  /**
   * The element's class step in `src/index.js`: with a `classList`, one
   * `add` per space-separated token, which joined back give the class name;
   * without one, a single `class` attribute.
   */
  function ClassIndex(e: Element, className: Option<string>): (r: Element)
    ensures !Truthy(className) ==> r == e
    ensures Truthy(className) && e.hasClassList ==> r == e.(classAdds := e.classAdds + Split(className.value, ' '))
    ensures Truthy(className) && !e.hasClassList ==>
      r == e.(attributes := e.attributes + [("class", className.value)])
    ensures Truthy(className) && !e.hasClassList ==>
      Attr(r, "class") == className && forall key :: key != "class" ==> Attr(r, key) == Attr(e, key)
  {
    if !Truthy(className) then e
    else if e.hasClassList then e.(classAdds := e.classAdds + Split(className.value, ' '))
    else e.(attributes := e.attributes + [("class", className.value)])
  }

  /**
   * `create_element` of `src/index.js`: the class name is split on spaces
   * into one `classList.add` per token, or written as a single `class`
   * attribute when the element has no `classList`. Only a bad name throws.
   */
  function CreateElementIndex(f: Fresh, name: string, attributes: Option<Attributes>,
                              children: Option<seq<ChildArg>>, listeners: Option<Entries>): (r: Result<Element, Error>)
    ensures r.Success? <==> ParseIndex(name).Success?
    ensures r.Failure? ==> r.error == InvalidName(name)
    ensures r.Success? ==> Built(f, ParseIndex(name).value, attributes, children, r.value)
    ensures r.Success? ==> r.value.listeners == WireListeners(IndexJs, r.value, listeners).calls
    ensures r.Success? && Truthy(ParseIndex(name).value.className) && f.hasClassList ==>
      Join(r.value.classAdds, ' ') == ParseIndex(name).value.className.value && r.value.className.None?
    ensures r.Success? && !f.hasClassList ==> r.value.classAdds == [] && r.value.className.None?
    ensures r.Success? && !Truthy(ParseIndex(name).value.className) ==> r.value.classAdds == []
    ensures r.Success? && Truthy(ParseIndex(name).value.className) && f.hasClassList ==>
      r.value.classAdds == Split(ParseIndex(name).value.className.value, ' ')
    ensures r.Success? ==>
      var fromName := if f.hasClassList || !Truthy(ParseIndex(name).value.className) then None
                      else ParseIndex(name).value.className;
      Attr(r.value, "class") == Overwritten(attributes, "class", fromName)
  {
    var p :- ParseIndex(name);
    Success(BuildIndex(f, p, attributes, children, listeners))
  }

  /** The steps of `create_element` in `src/index.js` after the name parsed. */
  function BuildIndex(f: Fresh, p: ParsedName, attributes: Option<Attributes>,
                      children: Option<seq<ChildArg>>, listeners: Option<Entries>): (r: Element)
    ensures Built(f, p, attributes, children, r)
    ensures r.listeners == WireListeners(IndexJs, r, listeners).calls
    ensures Truthy(p.className) && f.hasClassList ==> Join(r.classAdds, ' ') == p.className.value && r.className.None?
    ensures !f.hasClassList ==> r.classAdds == [] && r.className.None?
    ensures !Truthy(p.className) ==> r.classAdds == []
    ensures Truthy(p.className) && f.hasClassList ==> r.classAdds == Split(p.className.value, ' ')
    ensures var fromName := if f.hasClassList || !Truthy(p.className) then None else p.className;
      Attr(r, "class") == Overwritten(attributes, "class", fromName)
  {
    var e := ClassIndex(NewElement(f, p.namespace, p.tag), p.className);
    var r := Finish(IndexJs, e, p.id, attributes, children, listeners);
    assert r.Success?;
    IndexClassKept(f, p, attributes, children, r.value);
    BuiltFromFresh(f, p, e, attributes, children, r.value);
    r.value
  }

  /** The class step of `src/index.js` survives the shared steps that follow it. */
  lemma IndexClassKept(f: Fresh, p: ParsedName, attributes: Option<Attributes>,
                       children: Option<seq<ChildArg>>, after: Element)
    requires Extends(ClassIndex(NewElement(f, p.namespace, p.tag), p.className), p.id, attributes, children, after)
    ensures after.className.None?
    ensures after.classAdds == if Truthy(p.className) && f.hasClassList then Split(p.className.value, ' ') else []
    ensures Truthy(p.className) && f.hasClassList ==> Join(after.classAdds, ' ') == p.className.value
    ensures var fromName := if f.hasClassList || !Truthy(p.className) then None else p.className;
      Attr(after, "class") == Overwritten(attributes, "class", fromName)
  {
    var created := NewElement(f, p.namespace, p.tag);
    var e := ClassIndex(created, p.className);
    assert Attr(after, "class") == Overwritten(attributes, "class", Attr(e, "class"));
    if Truthy(p.className) && f.hasClassList {
      assert Join(Split(p.className.value, ' '), ' ') == p.className.value;
    }
  }

  /**
   * What both copies promise of a built element: it is the fresh node,
   * created in the parsed namespace with the parsed tag; its id is the parsed
   * id when that is non-empty; every given attribute holds its given value,
   * and no attribute but `class` is set otherwise; and its children are the
   * given ones, in order.
   */
  ghost predicate Built(f: Fresh, p: ParsedName, attributes: Option<Attributes>, children: Option<seq<ChildArg>>, e: Element) {
    var cs := if children.Some? then children.value else [];
    && e.node == f.node && e.api == f.api
    && e.namespace == p.namespace && e.tag == p.tag
    && e.id == (if Truthy(p.id) then p.id else None)
    && (forall key :: attributes.Some? && LastValue(attributes.value, key).Some? ==>
          Attr(e, key) == LastValue(attributes.value, key))
    && (forall key :: key != "class" ==> Attr(e, key) == Overwritten(attributes, key, None))
    && |e.children| == |cs|
    && (forall n :: 0 <= n < |cs| ==> Renders(cs[n], e.children[n], p.namespace == Some(SvgUri)))
  }

  /** Running the shared steps on a freshly created element builds what both copies promise. */
  lemma BuiltFromFresh(f: Fresh, p: ParsedName, e: Element, attributes: Option<Attributes>,
                       children: Option<seq<ChildArg>>, after: Element)
    requires e.node == f.node && e.api == f.api && e.namespace == p.namespace && e.tag == p.tag
    requires e.id.None? && e.children == []
    requires forall key :: key != "class" ==> Attr(e, key).None?
    requires Extends(e, p.id, attributes, children, after)
    ensures Built(f, p, attributes, children, after)
  {
    forall key | attributes.Some? && LastValue(attributes.value, key).Some?
      ensures Attr(after, key) == LastValue(attributes.value, key)
    {
      assert Attr(after, key) == Overwritten(attributes, key, Attr(e, key));
    }
    forall key | key != "class"
      ensures Attr(after, key) == Overwritten(attributes, key, None)
    {
      assert Attr(after, key) == Overwritten(attributes, key, Attr(e, key));
    }
  }

  /** The element's class step in `src/dom.js`: the whole class name goes to `className`. */
  function ClassDom(e: Element, className: Option<string>): (r: Element)
    ensures r.className == if Truthy(className) then className else e.className
    ensures r.(className := e.className) == e
  {
    if Truthy(className) then e.(className := className) else e
  }

  /**
   * `create_element` of `src/dom.js`: the whole class name is assigned to
   * `className`, without splitting. Besides a bad name, registering a
   * listener on an element without a listener API throws here.
   */
  function CreateElementDom(f: Fresh, name: string, attributes: Option<Attributes>,
                            children: Option<seq<ChildArg>>, listeners: Option<Entries>): (r: Result<Element, Error>)
    ensures r.Success? ==> ParseDom(name).Success?
    ensures ParseDom(name).Success? ==>
      (r.Failure? <==> AddEventListeners(DomJs, One(Target(f.node, f.api)), listeners).error.Some?)
    ensures f.api != NoApi ==> (r.Success? <==> ParseDom(name).Success?)
    ensures r.Failure? ==> r.error == InvalidName(name) || (f.api == NoApi && r.error == NotAFunction("attachEvent"))
    ensures r.Success? ==> Built(f, ParseDom(name).value, attributes, children, r.value)
    ensures r.Success? ==> r.value.listeners == WireListeners(DomJs, r.value, listeners).calls
    ensures r.Success? ==> r.value.classAdds == []
    ensures r.Success? ==> r.value.className == if Truthy(ParseDom(name).value.className) then ParseDom(name).value.className else None
    ensures r.Success? ==> Attr(r.value, "class") == Overwritten(attributes, "class", None)
  {
    var p :- ParseDom(name);
    BuildDom(f, p, attributes, children, listeners)
  }

  /** The steps of `create_element` in `src/dom.js` after the name parsed. */
  function BuildDom(f: Fresh, p: ParsedName, attributes: Option<Attributes>,
                    children: Option<seq<ChildArg>>, listeners: Option<Entries>): (r: Result<Element, Error>)
    ensures f.api != NoApi ==> r.Success?
    ensures r.Failure? <==> AddEventListeners(DomJs, One(Target(f.node, f.api)), listeners).error.Some?
    ensures r.Failure? ==> f.api == NoApi && r.error == NotAFunction("attachEvent")
    ensures r.Success? ==> Built(f, p, attributes, children, r.value)
    ensures r.Success? ==> r.value.listeners == WireListeners(DomJs, r.value, listeners).calls
    ensures r.Success? ==> r.value.classAdds == []
    ensures r.Success? ==> r.value.className == if Truthy(p.className) then p.className else None
    ensures r.Success? ==> Attr(r.value, "class") == Overwritten(attributes, "class", None)
  {
    var e := ClassDom(NewElement(f, p.namespace, p.tag), p.className);
    var r := Finish(DomJs, e, p.id, attributes, children, listeners);
    if r.Success? then BuiltFromFresh(f, p, e, attributes, children, r.value); r else r
  }

  // ---------------------------------------------------------------------------
  // Properties of the builder.

  /**
   * With one write per key, `set_attributes` leaves every given key holding
   * its given value, and every other key holding what it held before.
   */
  lemma SetAttributesWritesEach(e: Element, attributes: Attributes, n: nat, other: string)
    requires n < |attributes|
    requires forall a, b :: 0 <= a < b < |attributes| ==> attributes[a].0 != attributes[b].0
    requires forall m :: 0 <= m < |attributes| ==> attributes[m].0 != other
    ensures Attr(SetAttributes(e, Some(attributes)), attributes[n].0) == Some(attributes[n].1)
    ensures Attr(SetAttributes(e, Some(attributes)), other) == Attr(e, other)
  {
    LastValueOfUniqueKeys(attributes, n);
    LastValueAbsent(attributes, other);
  }

  /** A key never written has no value in the log. */
  lemma {:induction false} LastValueAbsent(log: Attributes, key: string)
    requires forall m :: 0 <= m < |log| ==> log[m].0 != key
    ensures LastValue(log, key).None?
    decreases |log|
  {
    if log != [] {
      LastValueAbsent(log[..|log| - 1], key);
    }
  }

  /** Appending two runs of children one after the other is appending their concatenation. */
  lemma {:induction false} AppendAllConcat(parent: Element, a: seq<ChildArg>, b: seq<ChildArg>)
    ensures AppendAll(AppendAll(parent, a), b) == AppendAll(parent, a + b)
    decreases |a|
  {
    if a == [] {
      assert a + b == b;
    } else {
      assert (a + b)[0] == a[0] && (a + b)[1..] == a[1..] + b;
      AppendAllConcat(AppendChild(parent, a[0]), a[1..], b);
    }
  }

  /**
   * For a plain tag name on an element with a listener API, the two copies
   * of `create_element` build the same element and make the same calls.
   */
  lemma CopiesBuildTheSame(f: Fresh, name: string, attributes: Option<Attributes>,
                           children: Option<seq<ChildArg>>, listeners: Option<Entries>)
    requires Plain(name) && name != "" && f.api != NoApi
    ensures CreateElementIndex(f, name, attributes, children, listeners) ==
            CreateElementDom(f, name, attributes, children, listeners)
  {
    PlainName(name);
    MapCopiesAgreeWithApi(Add, One(Target(f.node, f.api)), listeners);
  }

  /**
   * `tag.c.more…` (for example `div.a.b`): `src/index.js` adds the single
   * class `c`, and `src/dom.js` assigns `c` as the whole class name; the
   * later segments are lost in both.
   */
  lemma DroppedClassSegments(f: Fresh, t: string, c: string, tail: string)
    requires f.hasClassList
    requires Plain(t) && Plain(c) && t != "" && c != "" && ' ' !in c
    requires ':' !in tail && '#' !in tail
    requires tail == "" || tail[0] == '.'
    ensures CreateElementIndex(f, t + "." + c + tail, None, None, None) ==
      Success(Element(f.node, f.api, true, None, t, [c], None, None, [], [], []))
    ensures CreateElementDom(f, t + "." + c + tail, None, None, None) ==
      Success(Element(f.node, f.api, true, None, t, [], Some(c), None, [], [], []))
  {
    TagClass(t, c, tail);
    var created := NewElement(f, None, t);
    var e := ClassIndex(created, Some(c));
    assert e == created.(classAdds := [c]) by {
      assert Split(c, ' ') == [c];
    }
    FinishNothing(IndexJs, e);
    FinishNothing(DomJs, ClassDom(created, Some(c)));
  }

  /** With no id, attributes, children or listeners, the shared steps leave the element as it is. */
  lemma FinishNothing(copy: Copy, e: Element)
    ensures Finish(copy, e, None, None, None, None) == Success(e)
  {
    assert WireListeners(copy, e, None) == Outcome([], None);
    assert e.(listeners := e.listeners + []) == e;
  }

  /** A string child of an element created in the SVG namespace becomes an SVG text node. */
  lemma SvgTextChild(f: Fresh, name: string, text: string)
    requires Plain(name) && name != ""
    ensures var r := CreateElementIndex(f, "svg:" + name, None, Some([StringArg(text)]), None);
      r.Success? && r.value.namespace == Some(SvgUri) && r.value.children == [Text(text, true)]
  {
    assert "svg:" + name == "svg" + ":" + name;
    Namespaced("svg", name);
    var p := ParsedName(Some(SvgUri), "svg", Some(name), None);
    var r := CreateElementIndex(f, "svg:" + name, None, Some([StringArg(text)]), None);
    assert Built(f, p, None, Some([StringArg(text)]), r.value);
    assert Renders(StringArg(text), r.value.children[0], true);
  }
}

=== FILE: events.dfy ===
/**
 * Event helpers: `is_right_click`, `prevent_default`, `stop_propagation` and
 * `squash_event`. An event is a record of the methods it offers and of what
 * the helpers did to it.
 */
module Events {
  import opened Wrappers

  /**
   * `is_right_click`: `which` is consulted when the event has that property
   * at all (right button is 3), otherwise `button` (right button is 2);
   * with neither, the result is `undefined` (`None`). A property that is
   * absent is `None`; a property present but not a number is not modelled.
   */
  function IsRightClick(which: Option<int>, button: Option<int>): (r: Option<bool>)
    ensures r.None? <==> which.None? && button.None?
    ensures r == Some(true) <==> which == Some(3) || (which.None? && button == Some(2))
  {
    if which.Some? then Some(which.value == 3)
    else if button.Some? then Some(button.value == 2)
    else None
  }

  /** Once an event has `which`, its `button` no longer matters. */
  lemma WhichTakesPrecedence(w: int, b1: Option<int>, b2: Option<int>)
    ensures IsRightClick(Some(w), b1) == IsRightClick(Some(w), b2)
  {
  }

  /** The standard methods called on an event. */
  datatype EventCall = PreventDefaultCall | StopPropagationCall

  /**
   * An event: whether it offers the standard `preventDefault` and
   * `stopPropagation` methods, the calls made to them, and the legacy
   * `returnValue` and `cancelBubble` properties (`None` while unset).
   */
  datatype Event = Event(
    hasPreventDefault: bool,
    hasStopPropagation: bool,
    calls: seq<EventCall>,
    returnValue: Option<bool>,
    cancelBubble: Option<bool>)

  /** The default action is cancelled, the standard way or the legacy way. */
  predicate DefaultPrevented(e: Event) {
    PreventDefaultCall in e.calls || e.returnValue == Some(false)
  }

  /** Propagation is stopped, the standard way or the legacy way. */
  predicate PropagationStopped(e: Event) {
    StopPropagationCall in e.calls || e.cancelBubble == Some(true)
  }

  /**
   * `prevent_default`: call `preventDefault` when the event has it,
   * otherwise set `returnValue` to false. Afterwards the default is
   * prevented, and a stopped propagation stays stopped.
   */
  function PreventDefault(e: Event): (r: Event)
    ensures DefaultPrevented(r)
    ensures PropagationStopped(e) ==> PropagationStopped(r)
    ensures r.hasPreventDefault == e.hasPreventDefault && r.hasStopPropagation == e.hasStopPropagation
    ensures e.hasPreventDefault ==> r.calls == e.calls + [PreventDefaultCall]
    ensures e.hasPreventDefault ==> r.returnValue == e.returnValue && r.cancelBubble == e.cancelBubble
    ensures !e.hasPreventDefault ==> r.returnValue == Some(false)
    ensures !e.hasPreventDefault ==> r.calls == e.calls && r.cancelBubble == e.cancelBubble
  {
    if e.hasPreventDefault then e.(calls := e.calls + [PreventDefaultCall])
    else e.(returnValue := Some(false))
  }

  /**
   * `stop_propagation`: call `stopPropagation` when the event has it,
   * otherwise set `cancelBubble` to true and `returnValue` to false.
   * Afterwards propagation is stopped, and a prevented default stays
   * prevented; the legacy path also prevents the default.
   */
  function StopPropagation(e: Event): (r: Event)
    ensures PropagationStopped(r)
    ensures DefaultPrevented(e) ==> DefaultPrevented(r)
    ensures !e.hasStopPropagation ==> DefaultPrevented(r) && r.calls == e.calls
    ensures r.hasPreventDefault == e.hasPreventDefault && r.hasStopPropagation == e.hasStopPropagation
    ensures e.hasStopPropagation ==> r.calls == e.calls + [StopPropagationCall]
    ensures e.hasStopPropagation ==> r.returnValue == e.returnValue && r.cancelBubble == e.cancelBubble
    ensures !e.hasStopPropagation ==> r.cancelBubble == Some(true) && r.returnValue == Some(false)
  {
    if e.hasStopPropagation then e.(calls := e.calls + [StopPropagationCall])
    else e.(cancelBubble := Some(true), returnValue := Some(false))
  }

  /**
   * `squash_event`: prevent the default, then stop propagation, and return
   * false (the value an inline handler returns to cancel the event).
   */
  function SquashEvent(e: Event): (r: (Event, bool))
    ensures DefaultPrevented(r.0) && PropagationStopped(r.0)
    ensures !r.1
  {
    (StopPropagation(PreventDefault(e)), false)
  }

  /** A legacy event (neither standard method) is left the same by a second squash. */
  lemma SquashLegacyIdempotent(e: Event)
    requires !e.hasPreventDefault && !e.hasStopPropagation
    ensures SquashEvent(SquashEvent(e).0) == SquashEvent(e)
  {
  }

  /** On a standard event, squashing calls both methods, in order, and touches no legacy property. */
  lemma SquashStandard(e: Event)
    requires e.hasPreventDefault && e.hasStopPropagation
    ensures SquashEvent(e).0 == e.(calls := e.calls + [PreventDefaultCall, StopPropagationCall])
  {
    assert e.calls + [PreventDefaultCall] + [StopPropagationCall] == e.calls + [PreventDefaultCall, StopPropagationCall];
  }
}

=== FILE: geometry.dfy ===
/**
 * Geometry helpers: `get_bounds`, `is_within_bounds` and `get_page_bounds`.
 *
 * Numbers are modelled as exact reals. A property that may be `undefined`
 * is an `Option<real>`; JavaScript truthiness of a number is "defined and
 * not zero" (NaN is not modelled).
 */
module Geometry {
  import opened Wrappers
  import opened Host

  /** JavaScript truthiness of a number or `undefined`. */
  predicate Truthy(v: Option<real>) {
    v.Some? && v.value != 0.0
  }

  /**
   * What `getBoundingClientRect()` returns. Older engines leave `x`, `y`,
   * `width` and `height` undefined; the four edges are always present.
   */
  datatype NativeRect = NativeRect(
    x: Option<real>, y: Option<real>, width: Option<real>, height: Option<real>,
    top: real, left: real, bottom: real, right: real)

  /** The object `get_bounds` returns. Width and height are always defined; `x` and `y` may not be. */
  datatype Bounds = Bounds(
    x: Option<real>, y: Option<real>, width: real, height: real,
    top: real, left: real, bottom: real, right: real)

  /**
   * `get_bounds`: copy the native rectangle, and where `height` or `width`
   * is falsy, derive it from the edges. `src/index.js` also falls back to
   * `left` and `top` for a falsy `x` or `y`; `src/dom.js` passes `x` and `y`
   * through unchanged.
   */
  function GetBounds(copy: Copy, n: NativeRect): (b: Bounds)
    ensures b.top == n.top && b.left == n.left && b.bottom == n.bottom && b.right == n.right
    ensures Truthy(n.height) ==> b.height == n.height.value
    ensures !Truthy(n.height) ==> b.top + b.height == b.bottom
    ensures Truthy(n.width) ==> b.width == n.width.value
    ensures !Truthy(n.width) ==> b.left + b.width == b.right
    ensures copy == DomJs ==> b.x == n.x && b.y == n.y
    ensures copy == IndexJs ==> b.x == (if Truthy(n.x) then n.x else Some(n.left))
    ensures copy == IndexJs ==> b.y == (if Truthy(n.y) then n.y else Some(n.top))
  {
    var height := if Truthy(n.height) then n.height.value else n.bottom - n.top;
    var width := if Truthy(n.width) then n.width.value else n.right - n.left;
    var b := Bounds(n.x, n.y, width, height, n.top, n.left, n.bottom, n.right);
    if copy == DomJs then b
    else
      b.(x := if Truthy(n.x) then n.x else Some(n.left),
         y := if Truthy(n.y) then n.y else Some(n.top))
  }

  /** Bounds read back as a native rectangle. */
  function AsNative(b: Bounds): NativeRect {
    NativeRect(b.x, b.y, Some(b.width), Some(b.height), b.top, b.left, b.bottom, b.right)
  }

  /** Repairing bounds a second time changes nothing: `get_bounds` is idempotent. */
  lemma GetBoundsIdempotent(copy: Copy, n: NativeRect)
    ensures GetBounds(copy, AsNative(GetBounds(copy, n))) == GetBounds(copy, n)
  {
  }

  /** The two copies compute the same bounds apart from `x` and `y`. */
  lemma GetBoundsCopiesAgree(n: NativeRect)
    ensures GetBounds(IndexJs, n) == GetBounds(DomJs, n).(x := GetBounds(IndexJs, n).x, y := GetBounds(IndexJs, n).y)
  {
  }

  /**
   * A rectangle from an engine that reports only edges, left 5, top 10,
   * right 15 and bottom 30, has width 10 and height 20, and in
   * `src/index.js` position (5, 10).
   */
  lemma EdgesOnly()
    ensures GetBounds(IndexJs, NativeRect(None, None, None, None, 10.0, 5.0, 30.0, 15.0))
         == Bounds(Some(5.0), Some(10.0), 10.0, 20.0, 10.0, 5.0, 30.0, 15.0)
    ensures GetBounds(DomJs, NativeRect(None, None, None, None, 10.0, 5.0, 30.0, 15.0))
         == Bounds(None, None, 10.0, 20.0, 10.0, 5.0, 30.0, 15.0)
  {
  }

  /** The same rectangle reported with zero `x`, `y`, `width` and `height` is repaired the same way. */
  lemma ZerosRepaired()
    ensures GetBounds(IndexJs, NativeRect(Some(0.0), Some(0.0), Some(0.0), Some(0.0), 10.0, 5.0, 30.0, 15.0))
         == Bounds(Some(5.0), Some(10.0), 10.0, 20.0, 10.0, 5.0, 30.0, 15.0)
  {
  }

  // ---------------------------------------------------------------------------
  // Containment.

  /** The point lies in the closed rectangle spanned by the bounds' edges. */
  predicate PointIn(px: real, py: real, k: Bounds) {
    k.left <= px <= k.right && k.top <= py <= k.bottom
  }

  /** The centre of the bounds, as `is_within_bounds` computes it from `left`, `top`, `width`, `height`. */
  function Centre(b: Bounds): (real, real) {
    (b.left + b.width / 2.0, b.top + b.height / 2.0)
  }

  /** The child's top-left corner or its centre lies within the container. */
  predicate Within(child: Bounds, container: Bounds) {
    PointIn(child.left, child.top, container) || PointIn(Centre(child).0, Centre(child).1, container)
  }

  /**
   * `is_within_bounds`: true exactly when the child's top-left corner, or
   * its centre, lies within the container's edges, boundaries included.
   * Only edges, width and height are read, so the copies agree.
   */
  function IsWithinBounds(copy: Copy, child: NativeRect, container: NativeRect): (r: bool)
    ensures r <==> Within(GetBounds(copy, child), GetBounds(copy, container))
    ensures r <==> Within(GetBounds(IndexJs, child), GetBounds(IndexJs, container))
  {
    var cb := GetBounds(copy, child);
    var kb := GetBounds(copy, container);
    var cx := cb.left + (cb.width / 2.0);
    var cy := cb.top + (cb.height / 2.0);
    ((cb.left >= kb.left && cb.left <= kb.right) && (cb.top >= kb.top && cb.top <= kb.bottom))
    || ((cx >= kb.left && cx <= kb.right) && (cy >= kb.top && cy <= kb.bottom))
  }

  /** `outer`'s edges enclose `inner`'s. */
  predicate Encloses(outer: Bounds, inner: Bounds) {
    outer.left <= inner.left && inner.right <= outer.right && outer.top <= inner.top && inner.bottom <= outer.bottom
  }

  /** Enlarging the container keeps a child within it. */
  lemma WithinMonotone(child: Bounds, container: Bounds, larger: Bounds)
    requires Encloses(larger, container)
    ensures Within(child, container) ==> Within(child, larger)
  {
  }

  /** A child whose edges lie inside the container is within it. */
  lemma EnclosedIsWithin(child: Bounds, container: Bounds)
    requires child.left <= child.right && child.top <= child.bottom
    requires Encloses(container, child)
    ensures Within(child, container)
  {
  }

  /** Moving child and container by the same offset. */
  function Shift(b: Bounds, dx: real, dy: real): (s: Bounds)
    ensures s.width == b.width && s.height == b.height
    ensures s.right - s.left == b.right - b.left && s.bottom - s.top == b.bottom - b.top
  {
    b.(top := b.top + dy, left := b.left + dx, bottom := b.bottom + dy, right := b.right + dx)
  }

  /** Containment does not depend on where the two rectangles are, only on where they are relative to each other. */
  lemma WithinTranslationInvariant(child: Bounds, container: Bounds, dx: real, dy: real)
    ensures Within(Shift(child, dx, dy), Shift(container, dx, dy)) <==> Within(child, container)
  {
  }

  /**
   * Containment is not symmetric: a small box near a corner of a large one
   * is within it, but the large one is not within the small one.
   */
  lemma WithinNotSymmetric()
    ensures var big := NativeRect(None, None, None, None, 0.0, 0.0, 100.0, 100.0);
            var small := NativeRect(None, None, None, None, 80.0, 80.0, 90.0, 90.0);
            IsWithinBounds(IndexJs, small, big) && !IsWithinBounds(IndexJs, big, small)
  {
  }

  /** A rectangle of the given edges with no other measurements. */
  function Edges(top: real, left: real, bottom: real, right: real): NativeRect {
    NativeRect(None, None, None, None, top, left, bottom, right)
  }

  /**
   * Against a container from (0, 0) to (100, 100): a point-sized child at
   * (50, 50) is within, one at (200, 200) is not, and a child larger than
   * the container with the same centre is within by its centre alone.
   */
  lemma ContainmentExamples()
    ensures IsWithinBounds(IndexJs, Edges(50.0, 50.0, 50.0, 50.0), Edges(0.0, 0.0, 100.0, 100.0))
    ensures !IsWithinBounds(IndexJs, Edges(200.0, 200.0, 200.0, 200.0), Edges(0.0, 0.0, 100.0, 100.0))
    ensures IsWithinBounds(IndexJs, Edges(-50.0, -50.0, 150.0, 150.0), Edges(0.0, 0.0, 100.0, 100.0))
    ensures !PointIn(-50.0, -50.0, GetBounds(IndexJs, Edges(0.0, 0.0, 100.0, 100.0)))
  {
  }

  /**
   * A child whose corner lies outside but whose centre lies inside still
   * counts: a box from (-10, -10) to (10, 10) is within one from (0, 0) to
   * (100, 100).
   */
  lemma CentreSuffices()
    ensures IsWithinBounds(DomJs, NativeRect(None, None, None, None, -10.0, -10.0, 10.0, 10.0),
                                  NativeRect(None, None, None, None, 0.0, 0.0, 100.0, 100.0))
  {
  }

  // ---------------------------------------------------------------------------
  // Page size.

  /** JavaScript `a || b`: `a` when it is truthy, otherwise `b`. */
  function Or(a: Option<real>, b: Option<real>): (r: Option<real>)
    ensures Truthy(r) <==> Truthy(a) || Truthy(b)
    ensures r == a || r == b
  {
    if Truthy(a) then a else b
  }

  /** The three places a page dimension is read from, in order of preference. */
  datatype Sources = Sources(window: Option<real>, body: Option<real>, documentElement: Option<real>)

  /**
   * `window.X || document.body.X || document.documentElement.X`: the first
   * truthy source, or the last one when none is.
   */
  function FirstTruthy(s: Sources): (r: Option<real>)
    ensures Truthy(s.window) ==> r == s.window
    ensures !Truthy(s.window) && Truthy(s.body) ==> r == s.body
    ensures !Truthy(s.window) && !Truthy(s.body) ==> r == s.documentElement
    ensures Truthy(r) <==> Truthy(s.window) || Truthy(s.body) || Truthy(s.documentElement)
  {
    Or(Or(s.window, s.body), s.documentElement)
  }

  /** `get_page_bounds`: the inner width and height of the window, with the document's client size as fallback. */
  function GetPageBounds(widths: Sources, heights: Sources): (r: (Option<real>, Option<real>))
    ensures r.0 in {widths.window, widths.body, widths.documentElement}
    ensures r.1 in {heights.window, heights.body, heights.documentElement}
    ensures Truthy(r.0) <==> Truthy(widths.window) || Truthy(widths.body) || Truthy(widths.documentElement)
    ensures Truthy(r.1) <==> Truthy(heights.window) || Truthy(heights.body) || Truthy(heights.documentElement)
    ensures Truthy(widths.window) ==> r.0 == widths.window
    ensures !Truthy(widths.window) && Truthy(widths.body) ==> r.0 == widths.body
    ensures !Truthy(widths.window) && !Truthy(widths.body) ==> r.0 == widths.documentElement
    ensures Truthy(heights.window) ==> r.1 == heights.window
    ensures !Truthy(heights.window) && Truthy(heights.body) ==> r.1 == heights.body
    ensures !Truthy(heights.window) && !Truthy(heights.body) ==> r.1 == heights.documentElement
  {
    (FirstTruthy(widths), FirstTruthy(heights))
  }

  /**
   * A truthy source hides the ones after it: with a truthy window size the
   * document's sizes do not matter, and with a truthy body size the root
   * element's does not.
   */
  lemma LaterSourcesHidden(widths: Sources, heights: Sources, widths': Sources, heights': Sources)
    requires Truthy(widths.window) && widths'.window == widths.window
    requires Truthy(heights.body) && heights'.window == heights.window && heights'.body == heights.body
    ensures GetPageBounds(widths, heights).0 == GetPageBounds(widths', heights').0
    ensures GetPageBounds(widths, heights).1 == GetPageBounds(widths', heights').1
  {
  }

  /** A zero window size falls through to the body's size. */
  lemma ZeroWindowFallsThrough(w: real, h: real)
    requires w != 0.0 && h != 0.0
    ensures GetPageBounds(Sources(Some(0.0), Some(w), None), Sources(None, Some(h), Some(1.0))) == (Some(w), Some(h))
  {
  }
}

=== FILE: host.dfy ===
/**
 * What the modelled code receives from, or reports to, its host environment:
 * opaque node and listener handles, the listener API a node offers, the two
 * copies of the library, and the errors it can throw.
 */
module Host {

  /** Identity of a node owned by the document; the document hands out fresh ones. */
  type NodeId = nat

  /** Identity of a listener function. */
  type Listener = nat

  /**
   * Which listener API a host object offers: the standard
   * `addEventListener`/`removeEventListener` pair, only the legacy
   * `attachEvent`/`detachEvent` pair, or neither.
   */
  datatype Capability = Standard | LegacyOnly | NoApi

  /** The two copies of the library: `src/index.js` and `src/dom.js`. */
  datatype Copy = IndexJs | DomJs

  /**
   * `InvalidName` is the error `parse_name` throws; `NotAFunction` is the
   * TypeError raised when the code calls a legacy method the object lacks.
   */
  datatype Error = InvalidName(name: string) | NotAFunction(member: string)
}

=== FILE: listeners.dfy ===
/**
 * The listener broadcaster: `add_event_listener`, `remove_event_listener`
 * and their map forms `add_event_listeners`, `remove_event_listeners`.
 *
 * Each of elements, events and listeners may be one value or an array; a
 * single value is wrapped into a one-element array. The broadcaster then
 * visits every (element, event, listener) triple of the Cartesian product,
 * elements outermost and listeners innermost, and makes one host call per
 * triple. The model records those calls as a log. A host call the element
 * does not offer throws a TypeError, which ends the loop: the log then holds
 * the calls made before it.
 */
module Listeners {
  import opened Wrappers
  import opened Host
  import opened Broadcast

  /** An argument that is either a single value or an array. */
  datatype OneOrMany<T> = One(item: T) | Many(items: seq<T>)

  /** `if (!Array.isArray(x)) x = [x];` */
  function Normalize<T>(a: OneOrMany<T>): (r: seq<T>)
    ensures a.Many? ==> r == a.items
    ensures a.One? ==> |r| == 1 && r[0] == a.item
  {
    match a
    case One(x) => [x]
    case Many(xs) => xs
  }

  /** A host object listeners are registered on, with the listener API it offers. */
  datatype Target = Target(node: NodeId, api: Capability)

  /** The host methods the broadcaster calls: `addEventListener`, `attachEvent`, `removeEventListener`, `detachEvent`. */
  datatype Method = NativeAdd | Attach | NativeRemove | Detach

  /**
   * One call to the host. Legacy calls carry the `"on"`-prefixed event type;
   * standard calls always pass `false` as their third argument, which is not recorded.
   */
  datatype Call = Call(target: Target, via: Method, eventType: string, listener: Listener)

  /** The calls made, in order, and the error that stopped the loop, if one did. */
  datatype Outcome = Outcome(calls: seq<Call>, error: Option<Error>)

  datatype Op = Add | Remove

  /** The TypeError thrown when the legacy method an operation falls back to is missing. */
  function Missing(op: Op): Error {
    NotAFunction(if op == Add then "attachEvent" else "detachEvent")
  }

  /** What the loop body does for one triple: make a call, do nothing, or throw. */
  datatype Effect = Emit(call: Call) | Skip | Throw(error: Error)

  type Triple = (Target, string, Listener)

  // ---------------------------------------------------------------------------
  // One loop body per copy and operation.

  /** The call made on a target that offers a listener API. */
  function Registration(op: Op, target: Target, event: string, listener: Listener): (c: Call)
    requires target.api != NoApi
    ensures c.target == target && c.listener == listener
    ensures c.via in {NativeAdd, NativeRemove} ==> c.eventType == event
    ensures c.via in {Attach, Detach} ==> c.eventType == "on" + event
    ensures c.via in {NativeAdd, Attach} <==> op == Add
    ensures c.via in {NativeAdd, NativeRemove} <==> target.api == Standard
  {
    match (op, target.api)
    case (Add, Standard) => Call(target, NativeAdd, event, listener)
    case (Add, LegacyOnly) => Call(target, Attach, "on" + event, listener)
    case (Remove, Standard) => Call(target, NativeRemove, event, listener)
    case (Remove, LegacyOnly) => Call(target, Detach, "on" + event, listener)
  }

  /**
   * The loop body. On a target with no listener API, `src/index.js` adds
   * nothing (its fallback is guarded by `else if (element.attachEvent)`),
   * `src/dom.js` calls the missing `attachEvent`, and both copies call the
   * missing `detachEvent` on removal.
   */
  function Step(copy: Copy, op: Op, t: Triple): (e: Effect)
    ensures t.0.api != NoApi ==> e == Emit(Registration(op, t.0, t.1, t.2))
    ensures e.Throw? <==> t.0.api == NoApi && (op == Remove || copy == DomJs)
    ensures e.Throw? ==> e.error == Missing(op)
  {
    if t.0.api != NoApi then Emit(Registration(op, t.0, t.1, t.2))
    else
      match op
      case Add =>
        if copy == IndexJs then Skip
        else assert copy == DomJs; Throw(NotAFunction("attachEvent"))
      case Remove => Throw(NotAFunction("detachEvent"))
  }

  /** Run the loop body over the triples in order; a throw ends the loop. */
  function Run(copy: Copy, op: Op, ts: seq<Triple>): (o: Outcome)
    ensures |o.calls| <= |ts|
    ensures o.error.Some? ==> o.error.value == Missing(op)
  {
    if |ts| == 0 then Outcome([], None)
    else
      match Step(copy, op, ts[0])
      case Emit(c) =>
        var rest := Run(copy, op, ts[1..]);
        Outcome([c] + rest.calls, rest.error)
      case Skip => Run(copy, op, ts[1..])
      case Throw(e) => Outcome([], Some(e))
  }

  /** Sequential composition: the second outcome only happens if the first did not throw. */
  function Then(o1: Outcome, o2: Outcome): Outcome {
    if o1.error.Some? then o1 else Outcome(o1.calls + o2.calls, o2.error)
  }

  /** Running two stretches of triples one after the other is running their concatenation. */
  lemma {:induction false} RunAppend(copy: Copy, op: Op, ts1: seq<Triple>, ts2: seq<Triple>)
    ensures Run(copy, op, ts1 + ts2) == Then(Run(copy, op, ts1), Run(copy, op, ts2))
    decreases |ts1|
  {
    if |ts1| == 0 {
      assert ts1 + ts2 == ts2;
    } else {
      var s := ts1 + ts2;
      assert s[..1] == ts1[..1] && s[1..] == ts1[1..] + ts2;
      RunCons(copy, op, s);
      RunCons(copy, op, ts1);
      RunAppend(copy, op, ts1[1..], ts2);
      ThenAssoc(Run(copy, op, ts1[..1]), Run(copy, op, ts1[1..]), Run(copy, op, ts2));
    }
  }

  /** The loop is its first iteration followed by the rest. */
  lemma RunCons(copy: Copy, op: Op, ts: seq<Triple>)
    requires |ts| > 0
    ensures Run(copy, op, ts) == Then(Run(copy, op, ts[..1]), Run(copy, op, ts[1..]))
  {
    var first, rest := ts[..1], Run(copy, op, ts[1..]);
    assert first[0] == ts[0] && first[1..] == [];
    assert Run(copy, op, first[1..]) == Outcome([], None);
    match Step(copy, op, ts[0])
    case Emit(c) =>
      assert Run(copy, op, first) == Outcome([c], None);
    case Skip =>
      assert Run(copy, op, first) == Outcome([], None);
      assert [] + rest.calls == rest.calls;
    case Throw(e) =>
      assert Run(copy, op, first) == Outcome([], Some(e));
  }

  /** Sequential composition is associative. */
  lemma ThenAssoc(o1: Outcome, o2: Outcome, o3: Outcome)
    ensures Then(Then(o1, o2), o3) == Then(o1, Then(o2, o3))
  {
    if o1.error.None? && o2.error.None? {
      assert o1.calls + o2.calls + o3.calls == o1.calls + (o2.calls + o3.calls);
    }
  }

  /** The loop throws exactly when some triple's body throws. */
  lemma {:induction false} RunThrows(copy: Copy, op: Op, ts: seq<Triple>)
    ensures Run(copy, op, ts).error.Some? <==> exists k :: 0 <= k < |ts| && Step(copy, op, ts[k]).Throw?
    decreases |ts|
  {
    if ts != [] {
      RunThrows(copy, op, ts[1..]);
      if exists k :: 1 <= k < |ts| && Step(copy, op, ts[k]).Throw? {
        var k :| 1 <= k < |ts| && Step(copy, op, ts[k]).Throw?;
        assert ts[1..][k - 1] == ts[k];
      }
      if exists k :: 0 <= k < |ts[1..]| && Step(copy, op, ts[1..][k]).Throw? {
        var k :| 0 <= k < |ts[1..]| && Step(copy, op, ts[1..][k]).Throw?;
        assert ts[k + 1] == ts[1..][k];
      }
    }
  }

  /** When every body makes a call, the log holds one call per triple, in order, and nothing throws. */
  lemma {:induction false} RunEmits(copy: Copy, op: Op, ts: seq<Triple>)
    requires forall k :: 0 <= k < |ts| ==> Step(copy, op, ts[k]).Emit?
    ensures Run(copy, op, ts).error.None?
    ensures |Run(copy, op, ts).calls| == |ts|
    ensures forall k :: 0 <= k < |ts| ==> Run(copy, op, ts).calls[k] == Step(copy, op, ts[k]).call
    decreases |ts|
  {
    if ts != [] {
      assert Step(copy, op, ts[0]).Emit?;
      forall k | 0 <= k < |ts| - 1 ensures Step(copy, op, ts[1..][k]).Emit? {
        assert ts[1..][k] == ts[k + 1];
      }
      RunEmits(copy, op, ts[1..]);
    }
  }

  /** When every body skips, the loop makes no call and does not throw. */
  lemma {:induction false} RunSkips(copy: Copy, op: Op, ts: seq<Triple>)
    requires forall k :: 0 <= k < |ts| ==> Step(copy, op, ts[k]).Skip?
    ensures Run(copy, op, ts) == Outcome([], None)
    decreases |ts|
  {
    if ts != [] {
      assert Step(copy, op, ts[0]).Skip?;
      forall k | 0 <= k < |ts| - 1 ensures Step(copy, op, ts[1..][k]).Skip? {
        assert ts[1..][k] == ts[k + 1];
      }
      RunSkips(copy, op, ts[1..]);
    }
  }

  // ---------------------------------------------------------------------------
  // The public operations.

  predicate SomeLacksApi(targets: seq<Target>) {
    exists t :: t in targets && t.api == NoApi
  }

  /** The triples a broadcast visits, after wrapping single values into arrays. */
  function Triples(elements: OneOrMany<Target>, events: OneOrMany<string>, listeners: OneOrMany<Listener>): seq<Triple> {
    Product(Normalize(elements), Normalize(events), Normalize(listeners))
  }

  lemma {:induction false} ThrowsIffLacking(copy: Copy, op: Op, elements: OneOrMany<Target>, events: OneOrMany<string>, listeners: OneOrMany<Listener>)
    ensures Run(copy, op, Triples(elements, events, listeners)).error.Some?
        <==> (op == Remove || copy == DomJs) && SomeLacksApi(Normalize(elements))
             && |Normalize(events)| > 0 && |Normalize(listeners)| > 0
  {
    var xs, ys, zs := Normalize(elements), Normalize(events), Normalize(listeners);
    var ts := Triples(elements, events, listeners);
    RunThrows(copy, op, ts);
    if (op == Remove || copy == DomJs) && SomeLacksApi(xs) && |ys| > 0 && |zs| > 0 {
      var x :| x in xs && x.api == NoApi;
      ProductMember(xs, ys, zs, (x, ys[0], zs[0]));
      var k :| 0 <= k < |ts| && ts[k] == (x, ys[0], zs[0]);
      assert Step(copy, op, ts[k]).Throw?;
    }
    if exists k :: 0 <= k < |ts| && Step(copy, op, ts[k]).Throw? {
      var k :| 0 <= k < |ts| && Step(copy, op, ts[k]).Throw?;
      assert ts[k] in ts;
      ProductMember(xs, ys, zs, ts[k]);
    }
  }

  /** `add_event_listener`: register every triple of the product; see `Step` for the per-copy fallback. */
  function AddEventListener(copy: Copy, elements: OneOrMany<Target>, events: OneOrMany<string>, listeners: OneOrMany<Listener>): (o: Outcome)
    ensures copy == IndexJs ==> o.error.None?
    ensures o.error.Some? <==> (copy == DomJs && SomeLacksApi(Normalize(elements))
                               && |Normalize(events)| > 0 && |Normalize(listeners)| > 0)
    ensures !SomeLacksApi(Normalize(elements)) ==>
      |o.calls| == Mul(|Normalize(elements)|, Mul(|Normalize(events)|, |Normalize(listeners)|))
  {
    var ts := Triples(elements, events, listeners);
    ProductLength(Normalize(elements), Normalize(events), Normalize(listeners));
    ThrowsIffLacking(copy, Add, elements, events, listeners);
    AllEmit(copy, Add, elements, events, listeners);
    Run(copy, Add, ts)
  }

  /** `remove_event_listener`: the same text in both copies. */
  function RemoveEventListener(copy: Copy, elements: OneOrMany<Target>, events: OneOrMany<string>, listeners: OneOrMany<Listener>): (o: Outcome)
    ensures o.error.Some? <==> (SomeLacksApi(Normalize(elements))
                               && |Normalize(events)| > 0 && |Normalize(listeners)| > 0)
    ensures !SomeLacksApi(Normalize(elements)) ==>
      |o.calls| == Mul(|Normalize(elements)|, Mul(|Normalize(events)|, |Normalize(listeners)|))
  {
    var ts := Triples(elements, events, listeners);
    ProductLength(Normalize(elements), Normalize(events), Normalize(listeners));
    ThrowsIffLacking(copy, Remove, elements, events, listeners);
    AllEmit(copy, Remove, elements, events, listeners);
    Run(copy, Remove, ts)
  }

  lemma {:induction false} AllEmit(copy: Copy, op: Op, elements: OneOrMany<Target>, events: OneOrMany<string>, listeners: OneOrMany<Listener>)
    ensures !SomeLacksApi(Normalize(elements)) ==>
      var ts := Triples(elements, events, listeners);
      |Run(copy, op, ts).calls| == |ts|
      && forall k :: 0 <= k < |ts| ==>
           ts[k].0.api != NoApi && Run(copy, op, ts).calls[k] == Registration(op, ts[k].0, ts[k].1, ts[k].2)
  {
    var xs, ys, zs := Normalize(elements), Normalize(events), Normalize(listeners);
    var ts := Triples(elements, events, listeners);
    if !SomeLacksApi(xs) {
      forall k | 0 <= k < |ts| ensures ts[k].0.api != NoApi {
        assert ts[k] in ts;
        ProductMember(xs, ys, zs, ts[k]);
      }
      RunEmits(copy, op, ts);
    }
  }

  /** With every element offering an API, the n-th call registers the n-th triple. */
  lemma RegistrationAt(copy: Copy, elements: OneOrMany<Target>, events: OneOrMany<string>, listeners: OneOrMany<Listener>, n: nat, t: Triple)
    requires !SomeLacksApi(Normalize(elements))
    requires n < |Triples(elements, events, listeners)| && Triples(elements, events, listeners)[n] == t
    requires t.0.api != NoApi
    ensures n < |AddEventListener(copy, elements, events, listeners).calls|
    ensures AddEventListener(copy, elements, events, listeners).calls[n] == Registration(Add, t.0, t.1, t.2)
  {
    AllEmit(copy, Add, elements, events, listeners);
  }

  /**
   * The order of registration: with every element offering an API, the call
   * for (elements[i], events[j], listeners[k]) is the
   * ((i·|events| + j)·|listeners| + k)-th one.
   */
  lemma {:induction false} AddEventListenerOrder(copy: Copy, elements: OneOrMany<Target>, events: OneOrMany<string>, listeners: OneOrMany<Listener>, i: nat, j: nat, k: nat)
    requires !SomeLacksApi(Normalize(elements))
    requires i < |Normalize(elements)| && j < |Normalize(events)| && k < |Normalize(listeners)|
    ensures var n := Position(i, j, k, |Normalize(events)|, |Normalize(listeners)|);
      var calls := AddEventListener(copy, elements, events, listeners).calls;
      n < |calls| && calls[n] == Registration(Add, Normalize(elements)[i], Normalize(events)[j], Normalize(listeners)[k])
  {
    var xs, ys, zs := Normalize(elements), Normalize(events), Normalize(listeners);
    ProductIndex(xs, ys, zs, i, j, k);
    RegistrationAt(copy, elements, events, listeners, Position(i, j, k, |ys|, |zs|), (xs[i], ys[j], zs[k]));
  }

  /** The removal call that undoes a registration call. */
  function Inverse(c: Call): (r: Call)
    ensures r.target == c.target && r.eventType == c.eventType && r.listener == c.listener
    ensures c.via == NativeAdd ==> r.via == NativeRemove
    ensures c.via == Attach ==> r.via == Detach
  {
    match c.via
    case NativeAdd => c.(via := NativeRemove)
    case Attach => c.(via := Detach)
    case NativeRemove => c
    case Detach => c
  }

  /**
   * Removal mirrors registration: on elements that offer an API,
   * `remove_event_listener` makes, position by position, the inverse of each
   * call `add_event_listener` makes with the same arguments.
   */
  lemma {:induction false} RemoveMirrorsAdd(copy: Copy, elements: OneOrMany<Target>, events: OneOrMany<string>, listeners: OneOrMany<Listener>)
    requires !SomeLacksApi(Normalize(elements))
    ensures var added := AddEventListener(copy, elements, events, listeners);
      var removed := RemoveEventListener(copy, elements, events, listeners);
      added.error.None? && removed.error.None? && |removed.calls| == |added.calls|
      && forall n :: 0 <= n < |added.calls| ==> removed.calls[n] == Inverse(added.calls[n])
  {
    AllEmit(copy, Add, elements, events, listeners);
    AllEmit(copy, Remove, elements, events, listeners);
  }

  /** On an element with no listener API, `src/index.js` adds silently but its removal throws. */
  lemma {:induction false} IndexAddSilentRemoveThrows(t: Target, event: string, l: Listener)
    requires t.api == NoApi
    ensures AddEventListener(IndexJs, One(t), One(event), One(l)) == Outcome([], None)
    ensures RemoveEventListener(IndexJs, One(t), One(event), One(l)).error == Some(NotAFunction("detachEvent"))
  {
    assert [l][1..] == [] && [event][1..] == [] && [t][1..] == [];
    assert Inner(t, event, [l]) == [(t, event, l)];
    assert Row(t, [event], [l]) == [(t, event, l)];
    assert Product([t], [event], [l]) == [(t, event, l)];
  }

  /** The targets that offer a listener API, in their original order. */
  function WithApi(targets: seq<Target>): (r: seq<Target>)
    ensures forall t :: t in r <==> t in targets && t.api != NoApi
    ensures |r| <= |targets|
    ensures (forall k :: 0 <= k < |targets| ==> targets[k].api != NoApi) ==> r == targets
  {
    if |targets| == 0 then []
    else if targets[0].api == NoApi then WithApi(targets[1..])
    else [targets[0]] + WithApi(targets[1..])
  }

  /** `WithApi` is a filter: it keeps order across a concatenation. */
  lemma {:induction false} WithApiAppend(a: seq<Target>, b: seq<Target>)
    ensures WithApi(a + b) == WithApi(a) + WithApi(b)
    decreases |a|
  {
    if |a| == 0 {
      assert a + b == b;
    } else {
      assert (a + b)[0] == a[0];
      assert (a + b)[1..] == a[1..] + b;
      WithApiAppend(a[1..], b);
    }
  }

  /** In `src/index.js` an element without a listener API is skipped as if it were not in the list. */
  lemma {:induction false} IndexAddSkipsLacking(targets: seq<Target>, events: OneOrMany<string>, listeners: OneOrMany<Listener>)
    ensures AddEventListener(IndexJs, Many(targets), events, listeners)
         == AddEventListener(IndexJs, Many(WithApi(targets)), events, listeners)
    decreases |targets|
  {
    if targets != [] {
      var ys, zs := Normalize(events), Normalize(listeners);
      var row := Row(targets[0], ys, zs);
      IndexAddSkipsLacking(targets[1..], events, listeners);
      RunAppend(IndexJs, Add, row, Product(targets[1..], ys, zs));
      if targets[0].api == NoApi {
        forall k | 0 <= k < |row| ensures Step(IndexJs, Add, row[k]).Skip? {
          assert row[k] in row;
          ProductMember([targets[0]], ys, zs, row[k]);
          assert Product([targets[0]], ys, zs) == row + [];
        }
        RunSkips(IndexJs, Add, row);
      } else {
        var w := WithApi(targets);
        assert w[0] == targets[0] && w[1..] == WithApi(targets[1..]);
        RunAppend(IndexJs, Add, row, Product(w[1..], ys, zs));
      }
    }
  }

  /**
   * The element loop is outermost, so a call on the elements `a + b` is the
   * call on `a` followed by the call on `b`; a throw among `a` means no
   * element of `b` is visited.
   */
  lemma ElementsInTurn(copy: Copy, a: seq<Target>, b: seq<Target>, events: OneOrMany<string>, listeners: OneOrMany<Listener>)
    ensures AddEventListener(copy, Many(a + b), events, listeners)
         == Then(AddEventListener(copy, Many(a), events, listeners), AddEventListener(copy, Many(b), events, listeners))
    ensures RemoveEventListener(copy, Many(a + b), events, listeners)
         == Then(RemoveEventListener(copy, Many(a), events, listeners), RemoveEventListener(copy, Many(b), events, listeners))
  {
    var ys, zs := Normalize(events), Normalize(listeners);
    ProductAppend(a, b, ys, zs);
    RunAppend(copy, Add, Product(a, ys, zs), Product(b, ys, zs));
    RunAppend(copy, Remove, Product(a, ys, zs), Product(b, ys, zs));
  }

  // ---------------------------------------------------------------------------
  // The map forms.

  /** The own enumerable properties of an `events_and_listeners` object, in enumeration order. */
  type Entries = seq<(string, OneOrMany<Listener>)>

  function Keys(entries: Entries): (ks: seq<string>)
    ensures |ks| == |entries|
    ensures forall n :: 0 <= n < |entries| ==> ks[n] == entries[n].0
  {
    if |entries| == 0 then [] else [entries[0].0] + Keys(entries[1..])
  }

  /** One single-event broadcast per own key, in key order; a throw ends the loop. */
  function EachEntry(copy: Copy, op: Op, targets: seq<Target>, entries: Entries): (o: Outcome)
    ensures o.error.Some? ==> o.error.value == Missing(op)
    ensures |entries| == 0 ==> o == Outcome([], None)
  {
    if |entries| == 0 then Outcome([], None)
    else
      var first :=
        if op == Add then AddEventListener(copy, Many(targets), One(entries[0].0), entries[0].1)
        else RemoveEventListener(copy, Many(targets), One(entries[0].0), entries[0].1);
      Then(first, EachEntry(copy, op, targets, entries[1..]))
  }

  /** The triples the map form visits: keys outermost, then elements, then listeners. */
  function KeyedTriples(targets: seq<Target>, entries: Entries): seq<Triple> {
    if |entries| == 0 then []
    else Product(targets, [entries[0].0], Normalize(entries[0].1)) + KeyedTriples(targets, entries[1..])
  }

  lemma {:induction false} EachEntryRuns(copy: Copy, op: Op, targets: seq<Target>, entries: Entries)
    ensures EachEntry(copy, op, targets, entries) == Run(copy, op, KeyedTriples(targets, entries))
    decreases |entries|
  {
    if entries != [] {
      EachEntryRuns(copy, op, targets, entries[1..]);
      RunAppend(copy, op, Product(targets, [entries[0].0], Normalize(entries[0].1)), KeyedTriples(targets, entries[1..]));
    }
  }

  /** `add_event_listeners`: a missing (`null`/`undefined`) map registers nothing. */
  function AddEventListeners(copy: Copy, elements: OneOrMany<Target>, entries: Option<Entries>): (o: Outcome)
    ensures copy == IndexJs ==> o.error.None?
    ensures !SomeLacksApi(Normalize(elements)) ==> o.error.None?
    ensures o.error.Some? ==> o.error.value == NotAFunction("attachEvent")
    ensures entries.None? ==> o == Outcome([], None)
    ensures entries.Some? ==> o == Run(copy, Add, KeyedTriples(Normalize(elements), entries.value))
  {
    var es := if entries.Some? then entries.value else [];
    EachEntryRuns(copy, Add, Normalize(elements), es);
    NoThrowWithApi(copy, Add, Normalize(elements), es);
    EachEntry(copy, Add, Normalize(elements), es)
  }

  /** `remove_event_listeners`. */
  function RemoveEventListeners(copy: Copy, elements: OneOrMany<Target>, entries: Option<Entries>): (o: Outcome)
    ensures !SomeLacksApi(Normalize(elements)) ==> o.error.None?
    ensures o.error.Some? ==> o.error.value == NotAFunction("detachEvent")
    ensures entries.None? ==> o == Outcome([], None)
    ensures entries.Some? ==> o == Run(copy, Remove, KeyedTriples(Normalize(elements), entries.value))
  {
    var es := if entries.Some? then entries.value else [];
    EachEntryRuns(copy, Remove, Normalize(elements), es);
    NoThrowWithApi(copy, Remove, Normalize(elements), es);
    EachEntry(copy, Remove, Normalize(elements), es)
  }

  /**
   * The map form visits (element, key, listener) exactly when the element is
   * one of the given ones and the listener is among those of that key.
   */
  lemma {:induction false} KeyedMember(targets: seq<Target>, entries: Entries, t: Triple)
    ensures t in KeyedTriples(targets, entries) <==>
      t.0 in targets && exists n :: 0 <= n < |entries| && entries[n].0 == t.1 && t.2 in Normalize(entries[n].1)
    decreases |entries|
  {
    if |entries| > 0 {
      ProductMember(targets, [entries[0].0], Normalize(entries[0].1), t);
      KeyedMember(targets, entries[1..], t);
      KeyedStep(entries, t);
    }
  }

  /** A key of the map is its first key or a key of the rest. */
  lemma KeyedStep(entries: Entries, t: Triple)
    requires |entries| > 0
    ensures (exists n :: 0 <= n < |entries| && entries[n].0 == t.1 && t.2 in Normalize(entries[n].1)) <==>
      (entries[0].0 == t.1 && t.2 in Normalize(entries[0].1))
      || (exists n :: 0 <= n < |entries[1..]| && entries[1..][n].0 == t.1 && t.2 in Normalize(entries[1..][n].1))
  {
    var rest := entries[1..];
    if exists n :: 0 <= n < |entries| && entries[n].0 == t.1 && t.2 in Normalize(entries[n].1) {
      var n :| 0 <= n < |entries| && entries[n].0 == t.1 && t.2 in Normalize(entries[n].1);
      if n > 0 {
        assert rest[n - 1] == entries[n];
      }
    }
    if exists n :: 0 <= n < |rest| && rest[n].0 == t.1 && t.2 in Normalize(rest[n].1) {
      var n :| 0 <= n < |rest| && rest[n].0 == t.1 && t.2 in Normalize(rest[n].1);
      assert entries[n + 1] == rest[n];
    }
  }

  /**
   * On elements that all offer a listener API, the map forms make one call per
   * keyed triple, in order: `add_event_listeners` the registration of each,
   * `remove_event_listeners` its inverse.
   */
  lemma MapFormCalls(copy: Copy, elements: OneOrMany<Target>, entries: Entries)
    requires !SomeLacksApi(Normalize(elements))
    ensures var ts := KeyedTriples(Normalize(elements), entries);
      var added := AddEventListeners(copy, elements, Some(entries)).calls;
      var removed := RemoveEventListeners(copy, elements, Some(entries)).calls;
      |added| == |ts| && |removed| == |ts|
      && forall n :: 0 <= n < |ts| ==>
           ts[n].0.api != NoApi && added[n] == Registration(Add, ts[n].0, ts[n].1, ts[n].2)
           && removed[n] == Inverse(added[n])
  {
    var targets := Normalize(elements);
    var ts := KeyedTriples(targets, entries);
    forall k | 0 <= k < |ts| ensures ts[k].0.api != NoApi {
      assert ts[k] in ts;
      KeyedMember(targets, entries, ts[k]);
    }
    RunEmits(copy, Add, ts);
    RunEmits(copy, Remove, ts);
  }

  lemma {:induction false} NoThrowWithApi(copy: Copy, op: Op, targets: seq<Target>, entries: Entries)
    ensures (copy == IndexJs && op == Add) || !SomeLacksApi(targets) ==>
      Run(copy, op, KeyedTriples(targets, entries)).error.None?
  {
    var ts := KeyedTriples(targets, entries);
    RunThrows(copy, op, ts);
    forall k | 0 <= k < |ts| && !SomeLacksApi(targets) ensures ts[k].0.api != NoApi {
      assert ts[k] in ts;
      KeyedMember(targets, entries, ts[k]);
    }
  }

  /**
   * For a single element and a map whose every key carries the same
   * listeners, the map form makes the same calls as one broadcast over the
   * list of keys.
   */
  lemma {:induction false} MapFormIsBroadcastOverKeys(copy: Copy, t: Target, entries: Entries, ls: seq<Listener>)
    requires forall n :: 0 <= n < |entries| ==> Normalize(entries[n].1) == ls
    ensures AddEventListeners(copy, One(t), Some(entries)) == AddEventListener(copy, One(t), Many(Keys(entries)), Many(ls))
    decreases |entries|
  {
    EachEntryRuns(copy, Add, [t], entries);
    SingleKeyed(t, entries, ls);
  }

  lemma {:induction false} SingleKeyed(t: Target, entries: Entries, ls: seq<Listener>)
    requires forall n :: 0 <= n < |entries| ==> Normalize(entries[n].1) == ls
    ensures KeyedTriples([t], entries) == Product([t], Keys(entries), ls)
    decreases |entries|
  {
    if entries != [] {
      forall n | 0 <= n < |entries| - 1 ensures Normalize(entries[1..][n].1) == ls {
        assert entries[1..][n] == entries[n + 1];
      }
      SingleKeyed(t, entries[1..], ls);
      var ks := Keys(entries);
      assert ks[0] == entries[0].0 && ks[1..] == Keys(entries[1..]);
      assert Row(t, [ks[0]], ls) == Inner(t, ks[0], ls) + Row(t, [], ls);
      assert Product([t], [ks[0]], ls) == Inner(t, ks[0], ls);
      assert Product([t], ks, ls) == Row(t, ks, ls);
      assert Product([t], ks[1..], ls) == Row(t, ks[1..], ls);
    }
  }

  /**
   * The two copies differ only on targets without a listener API: where
   * every visited target has one, they make the same calls.
   */
  lemma {:induction false} CopiesAgreeWithApi(op: Op, ts: seq<Triple>)
    requires forall k :: 0 <= k < |ts| ==> ts[k].0.api != NoApi
    ensures Run(IndexJs, op, ts) == Run(DomJs, op, ts)
    decreases |ts|
  {
    if ts != [] {
      forall k | 0 <= k < |ts| - 1 ensures ts[1..][k].0.api != NoApi {
        assert ts[1..][k] == ts[k + 1];
      }
      CopiesAgreeWithApi(op, ts[1..]);
    }
  }

  /** The map form of both copies makes the same calls on elements that all have a listener API. */
  lemma {:induction false} MapCopiesAgreeWithApi(op: Op, elements: OneOrMany<Target>, entries: Option<Entries>)
    requires !SomeLacksApi(Normalize(elements))
    ensures AddEventListeners(IndexJs, elements, entries) == AddEventListeners(DomJs, elements, entries)
    ensures RemoveEventListeners(IndexJs, elements, entries) == RemoveEventListeners(DomJs, elements, entries)
  {
    var targets := Normalize(elements);
    var es := if entries.Some? then entries.value else [];
    var ts := KeyedTriples(targets, es);
    forall k | 0 <= k < |ts| ensures ts[k].0.api != NoApi {
      assert ts[k] in ts;
      KeyedMember(targets, es, ts[k]);
    }
    CopiesAgreeWithApi(Add, ts);
    CopiesAgreeWithApi(Remove, ts);
    EachEntryRuns(IndexJs, Add, targets, es);
    EachEntryRuns(DomJs, Add, targets, es);
    EachEntryRuns(IndexJs, Remove, targets, es);
    EachEntryRuns(DomJs, Remove, targets, es);
  }
}

=== FILE: names.dfy ===
/**
 * `parse_name`, the element-name mini-language `ns:tag#id.class`, in both of
 * its copies. Each copy is a fixed sequence of `indexOf`/`split` steps; the
 * first two steps (on `:` and on `#`) are the same text in both files and are
 * modelled once by `ScanPrefix`. The copies then differ: `src/index.js` has an
 * `else` branch that re-reads whichever split happened last, `src/dom.js` has
 * none.
 *
 * The variable `tag` is modelled as a string in which `""` also stands for
 * `undefined`: before its final value is chosen it is only ever tested for
 * truthiness, and its final value is always a string. `id` and `class_name`
 * are returned as they are, so they keep the difference between `undefined`
 * (`None`) and `""`.
 */
module Names {
  import opened Wrappers
  import opened Strings
  import opened Host

  /** The XML namespace the `svg` key resolves to. */
  const SvgUri: string := "http://www.w3.org/2000/svg"

  /** True when `s` contains none of the three delimiters of the mini-language. */
  predicate Plain(s: string) {
    ':' !in s && '#' !in s && '.' !in s
  }

  predicate HasPrefix(s: string, p: string) {
    |p| <= |s| && s[..|p|] == p
  }

  /** The `namespaces` table: `svg` is its only key; `undefined` and every other key resolve to `undefined`. */
  function Resolve(key: Option<string>): (uri: Option<string>)
    ensures uri.Some? <==> key == Some("svg")
    ensures uri.Some? ==> uri.value == SvgUri
  {
    if key == Some("svg") then Some(SvgUri) else None
  }

  /** The object `parse_name` returns. */
  datatype ParsedName = ParsedName(namespace: Option<string>, tag: string, id: Option<string>, className: Option<string>)

  /**
   * The local variables of `parse_name` after its `:` and `#` steps:
   * the namespace key, the tag (`""` for undefined), `arg_copy`, and the
   * array held in `split`, if any split happened.
   */
  datatype Scan = Scan(nsKey: Option<string>, tag: string, rest: string, split: Option<seq<string>>)

  /** The `:` and `#` steps shared by both copies. */
  function ScanPrefix(arg: string): (sc: Scan)
    ensures sc.nsKey.Some? <==> ':' in arg
    ensures sc.nsKey.Some? ==> ':' !in sc.nsKey.value && HasPrefix(arg, sc.nsKey.value + ":")
    ensures ':' !in sc.rest && '#' !in sc.rest
    ensures ':' !in sc.tag && '#' !in sc.tag
    ensures sc.split.None? <==> ':' !in arg && '#' !in arg
    ensures sc.split.None? ==> sc.rest == arg && sc.tag == ""
    ensures sc.split.Some? ==> |sc.split.value| >= 2 && sc.split.value[1] == sc.rest
    ensures sc.split.Some? ==> ':' !in sc.split.value[0]
  {
    var colon := ':' in arg;
    var cs := Split(arg, ':');
    SplitFirst(arg, ':');
    var nsKey := if colon then Some(cs[0]) else None;
    var rest := if colon then cs[1] else arg;
    if '#' in rest then
      var hs := Split(rest, '#');
      Scan(nsKey, hs[0], hs[1], Some(hs))
    else
      Scan(nsKey, "", rest, if colon then Some(cs) else None)
  }

  /** The namespace resolves exactly when the name starts with `svg:`. */
  lemma ScanNamespace(arg: string)
    ensures Resolve(ScanPrefix(arg).nsKey).Some? <==> HasPrefix(arg, "svg:")
  {
    if HasPrefix(arg, "svg:") {
      assert arg == "svg" + [':'] + arg[4..];
      SplitAfter("svg", ':', arg[4..]);
    }
    if ':' in arg && Split(arg, ':')[0] == "svg" {
      var i := IndexOf(arg, ':');
      assert arg == arg[..i] + [':'] + arg[i + 1..];
      SplitAfter(arg[..i], ':', arg[i + 1..]);
      assert arg[..4] == "svg:";
    }
  }

  /**
   * The last two statements of both copies: an empty tag falls back to
   * `arg_copy`, and a tag still empty throws.
   */
  function Conclude(arg: string, sc: Scan, tag: string, id: Option<string>, className: Option<string>): (r: Result<ParsedName, Error>)
    ensures r.Failure? <==> tag == "" && sc.rest == ""
    ensures r.Failure? ==> r.error == InvalidName(arg)
    ensures r.Success? ==> r.value.tag == (if tag != "" then tag else sc.rest)
    ensures r.Success? ==> r.value.namespace == Resolve(sc.nsKey) && r.value.id == id && r.value.className == className
  {
    var tag' := if tag != "" then tag else sc.rest;
    if tag' == "" then Failure(InvalidName(arg))
    else Success(ParsedName(Resolve(sc.nsKey), tag', id, className))
  }

  /** `parse_name` of `src/index.js`, with the `else` branch that re-reads the last split. */
  function ParseIndex(arg: string): (r: Result<ParsedName, Error>)
    ensures r.Success? <==> ScanPrefix(arg).rest != "" || (ScanPrefix(arg).split.Some? && ScanPrefix(arg).split.value[0] != "")
    ensures r.Failure? ==> r.error == InvalidName(arg)
    ensures r.Success? ==> r.value.tag != "" && ':' !in r.value.tag
    ensures r.Success? && r.value.id.Some? ==> Plain(r.value.id.value)
    ensures r.Success? && r.value.className.Some? ==> Plain(r.value.className.value)
    ensures r.Success? ==> (r.value.namespace.Some? <==> HasPrefix(arg, "svg:"))
    ensures r.Success? && r.value.namespace.Some? ==> r.value.namespace.value == SvgUri
  {
    ScanNamespace(arg);
    var sc := ScanPrefix(arg);
    if '.' in sc.rest then
      var ds := Split(sc.rest, '.');
      if sc.tag != "" then Conclude(arg, sc, sc.tag, Some(ds[0]), Some(ds[1]))
      else Conclude(arg, sc, ds[0], None, Some(ds[1]))
    else if sc.split.Some? then
      Conclude(arg, sc, sc.split.value[0], Some(sc.split.value[1]), None)
    else
      Conclude(arg, sc, arg, None, None)
  }

  /** `parse_name` of `src/dom.js`, which has no `else` branch. */
  function ParseDom(arg: string): (r: Result<ParsedName, Error>)
    ensures r.Success? <==> ScanPrefix(arg).tag != "" || ScanPrefix(arg).rest != ""
    ensures r.Failure? ==> r.error == InvalidName(arg)
    ensures r.Success? ==> r.value.tag != "" && ':' !in r.value.tag && '#' !in r.value.tag
    ensures r.Success? && r.value.id.Some? ==> Plain(r.value.id.value)
    ensures r.Success? && r.value.className.Some? ==> Plain(r.value.className.value)
    ensures r.Success? ==> (r.value.namespace.Some? <==> HasPrefix(arg, "svg:"))
    ensures r.Success? && r.value.namespace.Some? ==> r.value.namespace.value == SvgUri
  {
    ScanNamespace(arg);
    var sc := ScanPrefix(arg);
    if '.' in sc.rest then
      var ds := Split(sc.rest, '.');
      if sc.tag != "" then Conclude(arg, sc, sc.tag, Some(ds[0]), Some(ds[1]))
      else Conclude(arg, sc, ds[0], None, Some(ds[1]))
    else
      Conclude(arg, sc, sc.tag, None, None)
  }

  /** `""` and `"#"` name no tag, so both copies throw on them. */
  lemma EmptyAndHashThrow()
    ensures ParseIndex("").Failure? && ParseDom("").Failure?
    ensures ParseIndex("#").Failure? && ParseDom("#").Failure?
  {
    assert "#" == "" + ['#'] + "";
    SplitAfter("", '#', "");
  }

  /** A name without delimiters is the tag, with no namespace, id or class, in both copies. */
  lemma PlainName(s: string)
    requires Plain(s) && s != ""
    ensures ParseIndex(s) == Success(ParsedName(None, s, None, None))
    ensures ParseDom(s) == Success(ParsedName(None, s, None, None))
  {
  }

  /**
   * `tag#id`: `src/index.js` finds the id through its `else` branch, while
   * `src/dom.js` assigns an id only in its `.` branch and so drops it.
   */
  lemma {:induction false} TagAndId(t: string, i: string)
    requires Plain(t) && Plain(i) && t != ""
    ensures ParseIndex(t + "#" + i) == Success(ParsedName(None, t, Some(i), None))
    ensures ParseDom(t + "#" + i) == Success(ParsedName(None, t, None, None))
  {
    var s := t + "#" + i;
    assert s == t + ['#'] + i;
    SplitAfter(t, '#', i);
    assert Split(i, '#') == [i];
    assert ':' !in s by {
      forall k | 0 <= k < |s| ensures s[k] != ':' {
        if k < |t| { assert s[k] == t[k]; } else if k > |t| { assert s[k] == i[k - |t| - 1]; }
      }
    }
  }

  /**
   * `tag#id.c1.c2…`: the first dot segment after `#` is the id, the next one
   * the class name, and every later segment is dropped; both copies agree.
   */
  lemma {:induction false} TagIdClass(t: string, i: string, c: string, tail: string)
    requires Plain(t) && Plain(i) && Plain(c) && t != ""
    requires ':' !in tail && '#' !in tail
    requires tail == "" || tail[0] == '.'
    ensures ParseIndex(t + "#" + i + "." + c + tail) == Success(ParsedName(None, t, Some(i), Some(c)))
    ensures ParseDom(t + "#" + i + "." + c + tail) == Success(ParsedName(None, t, Some(i), Some(c)))
  {
    var after := i + ['.'] + (c + tail);
    var s := t + ['#'] + after;
    assert s == t + "#" + i + "." + c + tail;
    assert ':' !in s && '#' !in after;
    SplitAfter(t, '#', after);
    SplitAfter(i, '.', c + tail);
    SplitHead(c, '.', tail);
    assert after[|i|] == '.';
  }

  /**
   * `tag.c1.c2…`: the first dot segment is the tag, the second the class
   * name, and every later segment is dropped; both copies agree.
   */
  lemma {:induction false} TagClass(t: string, c: string, tail: string)
    requires Plain(t) && Plain(c) && t != ""
    requires ':' !in tail && '#' !in tail
    requires tail == "" || tail[0] == '.'
    ensures ParseIndex(t + "." + c + tail) == Success(ParsedName(None, t, None, Some(c)))
    ensures ParseDom(t + "." + c + tail) == Success(ParsedName(None, t, None, Some(c)))
  {
    var s := t + ['.'] + (c + tail);
    assert s == t + "." + c + tail;
    assert ':' !in s && '#' !in s;
    SplitAfter(t, '.', c + tail);
    SplitHead(c, '.', tail);
  }

  /**
   * `key:name` with no `#` or `.` in the name: `src/index.js` re-reads the
   * colon split in its `else` branch, so the key becomes the tag and the name
   * the id; `src/dom.js` falls back to the name as the tag, and throws when it
   * is empty. The key is read whole, `#` and `.` included.
   */
  lemma {:induction false} Namespaced(k: string, p: string)
    requires ':' !in k && Plain(p) && k != ""
    ensures ParseIndex(k + ":" + p) == Success(ParsedName(Resolve(Some(k)), k, Some(p), None))
    ensures ParseDom(k + ":" + p) ==
      if p == "" then Failure(InvalidName(k + ":" + p))
      else Success(ParsedName(Resolve(Some(k)), p, None, None))
  {
    var s := k + ":" + p;
    assert s == k + [':'] + p;
    SplitAfter(k, ':', p);
    assert Split(p, ':') == [p];
  }

  /** `"svg:path"` is an `svg` element with id `path` in `src/index.js`, a `path` element in `src/dom.js`. */
  lemma SvgPath()
    ensures ParseIndex("svg:path") == Success(ParsedName(Some(SvgUri), "svg", Some("path"), None))
    ensures ParseDom("svg:path") == Success(ParsedName(Some(SvgUri), "path", None, None))
  {
    assert "svg:path" == "svg" + ":" + "path";
    Namespaced("svg", "path");
  }

  /** Only the key `svg` gives a namespace: a name whose key is any other string parses, if at all, without one. */
  lemma OtherKeyNoNamespace(k: string, rest: string)
    requires ':' !in k && k != "svg"
    ensures ParseIndex(k + ":" + rest).Success? ==> ParseIndex(k + ":" + rest).value.namespace.None?
    ensures ParseDom(k + ":" + rest).Success? ==> ParseDom(k + ":" + rest).value.namespace.None?
  {
    NotSvgPrefix(k, rest);
  }

  /** A key other than `svg` and free of `:` keeps `svg:` from being a prefix. */
  lemma NotSvgPrefix(k: string, rest: string)
    requires ':' !in k && k != "svg"
    ensures !HasPrefix(k + ":" + rest, "svg:")
  {
    var s, p := k + ":" + rest, "svg:";
    if |k| < 3 {
      assert s[|k|] == ':' != p[|k|];
    } else if |k| > 3 {
      assert s[3] == k[3] != ':';
    } else {
      assert s[..3] == k != p[..3];
    }
  }

  /**
   * A namespace key in front of a name that holds `#` or `.` changes only the
   * namespace: `src/index.js` parses the rest as it would without the key.
   */
  lemma ColonPrefixIndex(k: string, rest: string)
    requires ':' !in k && ':' !in rest
    requires '#' in rest || '.' in rest
    ensures ParseIndex(rest).Success? ==>
      ParseIndex(k + ":" + rest) == Success(ParseIndex(rest).value.(namespace := Resolve(Some(k))))
  {
    ColonScan(k, rest);
  }

  /** The same for `src/dom.js`. */
  lemma ColonPrefixDom(k: string, rest: string)
    requires ':' !in k && ':' !in rest
    requires '#' in rest || '.' in rest
    ensures ParseDom(rest).Success? ==>
      ParseDom(k + ":" + rest) == Success(ParseDom(rest).value.(namespace := Resolve(Some(k))))
  {
    ColonScan(k, rest);
  }

  /** The colon step on `key:rest` leaves the key and hands `rest` to the `#` step unchanged. */
  lemma ColonScan(k: string, rest: string)
    requires ':' !in k && ':' !in rest
    ensures ScanPrefix(k + ":" + rest).nsKey == Some(k)
    ensures ScanPrefix(k + ":" + rest).rest == ScanPrefix(rest).rest
    ensures ScanPrefix(k + ":" + rest).tag == ScanPrefix(rest).tag
    ensures '#' in rest ==> ScanPrefix(k + ":" + rest).split == ScanPrefix(rest).split
  {
    var s := k + [':'] + rest;
    assert s == k + ":" + rest;
    SplitAfter(k, ':', rest);
    assert Split(rest, ':') == [rest];
  }

  /**
   * `key:tag#id`: the colon step leaves `tag#id`, and the copies then treat
   * it as they treat `tag#id`: `src/index.js` keeps the id, `src/dom.js` drops it.
   */
  lemma NsTagId(k: string, t: string, i: string)
    requires ':' !in k && Plain(t) && Plain(i) && t != ""
    ensures ParseIndex(k + ":" + t + "#" + i) == Success(ParsedName(Resolve(Some(k)), t, Some(i), None))
    ensures ParseDom(k + ":" + t + "#" + i) == Success(ParsedName(Resolve(Some(k)), t, None, None))
  {
    var rest := t + "#" + i;
    assert k + ":" + t + "#" + i == k + ":" + rest;
    assert rest[|t|] == '#';
    TagAndId(t, i);
    ColonPrefixIndex(k, rest);
    ColonPrefixDom(k, rest);
  }

  /**
   * `key:tag.c1.c2…`: after the colon step the first dot segment is the tag
   * and the second the class name, in both copies.
   */
  lemma NsTagClass(k: string, t: string, c: string, tail: string)
    requires ':' !in k && Plain(t) && Plain(c) && t != ""
    requires ':' !in tail && '#' !in tail
    requires tail == "" || tail[0] == '.'
    ensures ParseIndex(k + ":" + t + "." + c + tail) == Success(ParsedName(Resolve(Some(k)), t, None, Some(c)))
    ensures ParseDom(k + ":" + t + "." + c + tail) == Success(ParsedName(Resolve(Some(k)), t, None, Some(c)))
  {
    var rest := t + "." + c + tail;
    assert k + ":" + t + "." + c + tail == k + ":" + rest;
    assert rest[|t|] == '.';
    assert ':' !in rest;
    TagClass(t, c, tail);
    ColonPrefixIndex(k, rest);
    ColonPrefixDom(k, rest);
  }

  /**
   * `key:tag#id.c1.c2…`, such as `svg:g#main.icon`: the namespace, tag, id
   * and first class segment, in both copies.
   */
  lemma NsTagIdClass(k: string, t: string, i: string, c: string, tail: string)
    requires ':' !in k && Plain(t) && Plain(i) && Plain(c) && t != ""
    requires ':' !in tail && '#' !in tail
    requires tail == "" || tail[0] == '.'
    ensures ParseIndex(k + ":" + t + "#" + i + "." + c + tail) == Success(ParsedName(Resolve(Some(k)), t, Some(i), Some(c)))
    ensures ParseDom(k + ":" + t + "#" + i + "." + c + tail) == Success(ParsedName(Resolve(Some(k)), t, Some(i), Some(c)))
  {
    var rest := t + "#" + i + "." + c + tail;
    assert k + ":" + t + "#" + i + "." + c + tail == k + ":" + rest;
    assert rest[|t|] == '#';
    assert ':' !in rest;
    TagIdClass(t, i, c, tail);
    ColonPrefixIndex(k, rest);
    ColonPrefixDom(k, rest);
  }

  /**
   * Two outcomes of `parse_name` that agree: both throw, or both return the
   * same object. The error messages may still differ, as each quotes its name.
   */
  predicate SameParse(a: Result<ParsedName, Error>, b: Result<ParsedName, Error>) {
    a.Success? == b.Success? && (a.Success? ==> a.value == b.value)
  }

  /**
   * Only the first two `:` segments are read: whatever follows a second `:`
   * is dropped, in both copies, so `a:b:c` parses as `a:b`.
   */
  lemma ExtraColonDropped(k: string, p: string, more: string)
    requires ':' !in k && ':' !in p
    ensures SameParse(ParseIndex(k + ":" + p + ":" + more), ParseIndex(k + ":" + p))
    ensures SameParse(ParseDom(k + ":" + p + ":" + more), ParseDom(k + ":" + p))
  {
    ExtraColonScan(k, p, more);
  }

  /** The `:` and `#` steps on `key:p:more` and on `key:p` leave the same variables behind, up to `split[1]`. */
  lemma ExtraColonScan(k: string, p: string, more: string)
    requires ':' !in k && ':' !in p
    ensures var long, short := ScanPrefix(k + ":" + p + ":" + more), ScanPrefix(k + ":" + p);
      && long.nsKey == short.nsKey && long.tag == short.tag && long.rest == short.rest
      && long.split.Some? && short.split.Some?
      && long.split.value[0] == short.split.value[0] && long.split.value[1] == short.split.value[1]
  {
    var long := k + [':'] + (p + [':'] + more);
    assert long == k + ":" + p + ":" + more;
    SplitAfter(k, ':', p + [':'] + more);
    SplitAfter(p, ':', more);
    var short := k + [':'] + p;
    assert short == k + ":" + p;
    SplitAfter(k, ':', p);
    assert Split(p, ':') == [p];
    ScanColonSegments(long);
    ScanColonSegments(short);
  }

  /** On a name with a `:`, the `:` and `#` steps read only its first two `:` segments. */
  lemma ScanColonSegments(arg: string)
    requires ':' in arg
    ensures var cs, sc := Split(arg, ':'), ScanPrefix(arg);
      var parts := if '#' in cs[1] then Split(cs[1], '#') else cs;
      && sc.nsKey == Some(cs[0]) && sc.tag == (if '#' in cs[1] then parts[0] else "") && sc.rest == parts[1]
      && sc.split.Some? && sc.split.value[0] == parts[0] && sc.split.value[1] == parts[1]
  {
  }

  /**
   * Only the first two `#` segments are read: whatever follows a second `#`
   * is dropped, in both copies, so `t#i#x` parses as `t#i`.
   */
  lemma ExtraHashDropped(t: string, i: string, more: string)
    requires ':' !in t && ':' !in i && ':' !in more
    requires '#' !in t && '#' !in i
    ensures SameParse(ParseIndex(t + "#" + i + "#" + more), ParseIndex(t + "#" + i))
    ensures SameParse(ParseDom(t + "#" + i + "#" + more), ParseDom(t + "#" + i))
  {
    ExtraHashScan(t, i, more);
  }

  /** The `:` and `#` steps on `t#i#more` and on `t#i` leave the same variables behind, up to `split[1]`. */
  lemma ExtraHashScan(t: string, i: string, more: string)
    requires ':' !in t && ':' !in i && ':' !in more
    requires '#' !in t && '#' !in i
    ensures var long, short := ScanPrefix(t + "#" + i + "#" + more), ScanPrefix(t + "#" + i);
      && long.nsKey == short.nsKey == None && long.tag == short.tag == t && long.rest == short.rest == i
      && long.split.Some? && short.split.Some?
      && long.split.value[0] == short.split.value[0] && long.split.value[1] == short.split.value[1]
  {
    var long := t + ['#'] + (i + ['#'] + more);
    assert long == t + "#" + i + "#" + more;
    assert ':' !in long;
    SplitAfter(t, '#', i + ['#'] + more);
    SplitAfter(i, '#', more);
    var short := t + ['#'] + i;
    assert short == t + "#" + i;
    assert ':' !in short;
    SplitAfter(t, '#', i);
    assert Split(i, '#') == [i];
  }

  /**
   * `#name`: the tag before `#` is empty, so both copies fall back to the
   * name after it; `src/index.js` also takes that name as the id, from its
   * `else` branch.
   */
  lemma HashOnly(x: string)
    requires Plain(x) && x != ""
    ensures ParseIndex("#" + x) == Success(ParsedName(None, x, Some(x), None))
    ensures ParseDom("#" + x) == Success(ParsedName(None, x, None, None))
  {
    var s := "" + ['#'] + x;
    assert s == "#" + x;
    SplitAfter("", '#', x);
    assert Split(x, '#') == [x];
  }

  /**
   * `.c`: the segment before the dot is empty, so both copies fall back to
   * `arg_copy`, and the tag is the whole name, dot included.
   */
  lemma DotOnly(c: string)
    requires Plain(c)
    ensures ParseIndex("." + c) == Success(ParsedName(None, "." + c, None, Some(c)))
    ensures ParseDom("." + c) == Success(ParsedName(None, "." + c, None, Some(c)))
  {
    var s := "" + ['.'] + c;
    assert s == "." + c;
    assert ':' !in s && '#' !in s;
    SplitAfter("", '.', c);
    assert Split(c, '.') == [c];
  }

  /**
   * `#i.c`: the tag before `#` is empty, so the `.` step takes `i` as the
   * tag rather than the id; neither copy gives an id.
   */
  lemma HashIdClass(i: string, c: string)
    requires Plain(i) && Plain(c) && i != ""
    ensures ParseIndex("#" + i + "." + c) == Success(ParsedName(None, i, None, Some(c)))
    ensures ParseDom("#" + i + "." + c) == Success(ParsedName(None, i, None, Some(c)))
  {
    var after := i + ['.'] + c;
    var s := "" + ['#'] + after;
    assert s == "#" + i + "." + c;
    assert ':' !in s && '#' !in after;
    SplitAfter("", '#', after);
    assert Split(after, '#') == [after];
    SplitAfter(i, '.', c);
    assert Split(c, '.') == [c];
  }

  /**
   * `a#b:c`: the `:` step comes first, so the key is `a#b`, which resolves
   * to no namespace; `src/index.js` makes the key the tag and `c` the id,
   * `src/dom.js` makes `c` the tag.
   */
  lemma HashBeforeColon()
    ensures ParseIndex("a#b:c") == Success(ParsedName(None, "a#b", Some("c"), None))
    ensures ParseDom("a#b:c") == Success(ParsedName(None, "c", None, None))
  {
    assert "a#b:c" == "a#b" + ":" + "c";
    Namespaced("a#b", "c");
  }

  /** Without `:` and `#` the two copies are indistinguishable. */
  lemma CopiesAgreeWithoutColonOrHash(s: string)
    requires ':' !in s && '#' !in s
    ensures ParseIndex(s) == ParseDom(s)
  {
  }

  /**
   * Every name `src/dom.js` accepts is accepted by `src/index.js` too, with
   * the same namespace and class; the converse fails on `"svg:"`.
   */
  lemma DomAcceptsOnlyWhatIndexAccepts(s: string)
    ensures ParseDom(s).Success? ==> ParseIndex(s).Success?
    ensures ParseDom(s).Success? ==> ParseIndex(s).value.namespace == ParseDom(s).value.namespace
    ensures ParseDom(s).Success? ==> ParseIndex(s).value.className == ParseDom(s).value.className
  {
  }

  /** `"svg:"` separates the copies: `src/index.js` builds an `svg` element, `src/dom.js` throws. */
  lemma SvgColonOnly()
    ensures ParseIndex("svg:") == Success(ParsedName(Some(SvgUri), "svg", Some(""), None))
    ensures ParseDom("svg:").Failure?
  {
    assert "svg:" == "svg" + ":" + "";
    Namespaced("svg", "");
  }
}

=== FILE: strings.dfy ===
/**
 * The two pieces of JavaScript string semantics `parse_name` and
 * `create_element` rely on: truthiness of a possibly-undefined string, and
 * `String.prototype.split` with a one-character separator, which splits at
 * every occurrence and keeps empty segments.
 */
module Strings {
  import opened Wrappers

  /** JavaScript truthiness of a string or `undefined`: only `""` and `undefined` are falsy. */
  predicate Truthy(s: Option<string>) {
    s.Some? && s.value != ""
  }

  /** Position of the first occurrence of `d` in `s` (JavaScript `indexOf`). */
  function IndexOf(s: string, d: char): (i: nat)
    requires d in s
    ensures i < |s| && s[i] == d
    ensures forall k :: 0 <= k < i ==> s[k] != d
  {
    if s[0] == d then 0 else IndexOf(s[1..], d) + 1
  }

  /** `s.split(d)`: the segments between consecutive occurrences of `d`, empty ones kept. */
  function Split(s: string, d: char): (parts: seq<string>)
    ensures |parts| >= 1
    ensures d in s <==> |parts| >= 2
    ensures forall k :: 0 <= k < |parts| ==> d !in parts[k]
    ensures forall k, c :: 0 <= k < |parts| && c in parts[k] ==> c in s
    ensures Join(parts, d) == s
    decreases |s|
  {
    if d !in s then [s]
    else
      var i := IndexOf(s, d);
      var rest := Split(s[i + 1..], d);
      assert s == s[..i] + [d] + s[i + 1..];
      [s[..i]] + rest
  }

  /** `parts.join(d)`. */
  function Join(parts: seq<string>, d: char): string {
    if |parts| == 0 then "" else if |parts| == 1 then parts[0] else parts[0] + [d] + Join(parts[1..], d)
  }

  /** The first occurrence of `d` in `a + [d] + b` is the one after `a` when `a` has none. */
  lemma IndexOfAfter(a: string, d: char, b: string)
    requires d !in a
    ensures IndexOf(a + [d] + b, d) == |a|
  {
    var s := a + [d] + b;
    var i := IndexOf(s, d);
    assert s[..|a|] == a;
    assert s[|a|] == d;
  }

  /** The first segment is the text before the first delimiter, which follows it. */
  lemma SplitFirst(s: string, d: char)
    ensures d in s ==> |Split(s, d)[0]| < |s| && s[..|Split(s, d)[0]| + 1] == Split(s, d)[0] + [d]
  {
    if d in s {
      var i := IndexOf(s, d);
      assert s == s[..i] + [d] + s[i + 1..];
      SplitAfter(s[..i], d, s[i + 1..]);
    }
  }

  /** Splitting at a first delimiter peels off the segment before it. */
  lemma SplitAfter(a: string, d: char, b: string)
    requires d !in a
    ensures Split(a + [d] + b, d) == [a] + Split(b, d)
  {
    var s := a + [d] + b;
    IndexOfAfter(a, d, b);
    assert s[..|a|] == a;
    assert s[|a| + 1..] == b;
  }

  /** The first segment of `a + b` is `a` when `a` holds no `d` and `b` is empty or starts with `d`. */
  lemma SplitHead(a: string, d: char, b: string)
    requires d !in a
    requires b == [] || b[0] == d
    ensures Split(a + b, d)[0] == a
  {
    if b == [] {
      assert a + b == a;
    } else {
      assert a + b == a + [d] + b[1..];
      SplitAfter(a, d, b[1..]);
    }
  }

  /** Split undoes Join: joining delimiter-free segments and splitting again gives them back. */
  lemma {:induction false} SplitJoin(parts: seq<string>, d: char)
    requires |parts| >= 1
    requires forall k :: 0 <= k < |parts| ==> d !in parts[k]
    ensures Split(Join(parts, d), d) == parts
    decreases |parts|
  {
    if |parts| == 1 {
      assert Split(parts[0], d) == [parts[0]];
    } else {
      var rest := parts[1..];
      assert forall k :: 0 <= k < |rest| ==> d !in rest[k] by {
        forall k | 0 <= k < |rest| ensures d !in rest[k] {
          assert rest[k] == parts[k + 1];
        }
      }
      SplitJoin(rest, d);
      SplitJoinStep(parts, d);
    }
  }

  /** The inductive step of `SplitJoin`: the first segment is peeled off, the rest split back by induction. */
  lemma SplitJoinStep(parts: seq<string>, d: char)
    requires |parts| > 1 && d !in parts[0]
    requires Split(Join(parts[1..], d), d) == parts[1..]
    ensures Split(Join(parts, d), d) == parts
  {
    SplitAfter(parts[0], d, Join(parts[1..], d));
    assert parts == [parts[0]] + parts[1..];
  }
}

=== FILE: wrappers.dfy ===
/** Option and Result, the failure-compatible wrappers used throughout the model. */
module Wrappers {

  /** `None` stands for JavaScript's `undefined` (or an absent property). */
  datatype Option<+T> = None | Some(value: T)

  /** `Failure` stands for an exception thrown by the modelled code. */
  datatype Result<+R, +E> = Success(value: R) | Failure(error: E) {

    predicate IsFailure() {
      Failure?
    }

    function PropagateFailure<U>(): Result<U, E>
      requires Failure?
    {
      Failure(error)
    }

    function Extract(): R
      requires Success?
    {
      value
    }
  }
}
